=== FILE: README.md ===
# Interview Question Generator — a Dafny model of its core

The application turns an uploaded PDF into a list of interview questions and an
answer for each. `src/helper.py` does the work: it loads the PDF, joins the page
texts, splits the document two ways, runs a refine pass of a language model over the
answer chunks to write a blob of questions, builds a vector index, and filters the
blob down to clean question lines. Two front ends wrap this. The FastAPI service
(`app.py`) has an upload endpoint and an analysis endpoint that writes a CSV table of
questions and answers. The Streamlit page (`streamlit_app.py`) shows the same table
with a progress bar and a download button.

This model covers the logic the repository owns itself:

- the input guards and page assembly of `file_preprocessing`, and the two splitter
  configurations;
- the question-list filter, the embedding choice and the error rewrap of
  `llm_pipeline`;
- the per-question answer loop in both front ends. Failures are kept as data: one
  record per non-blank question, in order, and the loop never aborts;
- the upload guard and stored file name, the analysis response and the catch-all
  error handling of the FastAPI handlers;
- the progress-bar arithmetic, the whole-run outcome and the download name of the
  Streamlit page.

Everything the code calls but does not own is a function-valued field of
`Helper.Collaborators` and is passed in as a parameter. That covers the filesystem
check, the PDF loader, the text splitter, the two model steps of the refine chain,
the index build and the question-answering chain. A `Failure` carries the text of the
exception the library would raise. Callers only ever use an exception through
`str(e)`.

Modules, one per file:

- `Outcomes` (`outcomes.dfy`): `Result` and `Option`.
- `PyStr` (`py_str.dfy`): the Python `str` operations the code uses. These are
  `isspace`, `strip`, `split`/`join` on `"\n"`, `endswith`, `lower`, `replace` and
  `str(int)`.
- `Helper` (`helper.dfy`): `src/helper.py`. `FilePreprocessing` and `LlmPipeline` are
  methods proved equal to the pure functions `Preprocess` and `Pipeline`.
  `AssembleDocument` is the page loop, proved against `Concat`.
- `AnswerRecords` (`answer_records.dfy`): the answer loop both front ends share, as
  the function `Records`, with its properties.
- `App` (`app.py`): `WriteAnswerRows` is the CSV loop and `RunAnalysis` is the body
  of `analyze_pdf`'s `try` block. They are proved equal to `CsvTable` and `Analysis`.
  The handlers are modelled both as written and as evidently intended (see Findings).
- `StreamlitApp` (`streamlit_app.py`): `CollectAnswers` is the `qa_data` loop and
  `GenerateQa` is the button handler. They are proved equal to `Records`/
  `ProgressUpdates` and to `Generate`.

Two behaviours come from the frameworks, not from this repository's text. The model
fixes them as follows:

- `str()` of an `HTTPException` is `"<status>: <detail>"` (`App.RaisedText`), as the
  web framework's exception class renders it.
- The refine chain, handed an empty chunk list, fails with `"list index out of
  range"`, because it reads the first document (`Helper.EMPTY_CHAIN_ERROR`).

## Model

| member | source | states |
|---|---|---|
| Helper.SplitterParameters | src/helper.py:40-53 | both splitters use chunk size 10000 and the same separators; the answer overlap is `CHUNK_OVERLAP // 2`, so it is at most the question overlap and exactly half of it, rounded down |
| Helper.AssembleDocument | src/helper.py:34-37 | the `+=` loop over pages builds exactly the in-order concatenation of the page texts, with no separator |
| Helper.ConcatInOrder | src/helper.py:36-37 | page `k` sits in the document right after the text of the pages before it and right before the text of the pages after it |
| Helper.ConcatOfEmptyPages | src/helper.py:34-37 | pages that are all empty give the empty document |
| Helper.FilePreprocessing | src/helper.py:14-58 | `file_preprocessing` step by step equals `Preprocess`: a missing path gives FileNotFound, a loader error passes through, zero pages gives NoContent, and otherwise both chunk lists are splits of the concatenated document |
| Helper.MissingFileFailsBeforeLoading | src/helper.py:24-25 | a missing path fails with `FileNotFound(path)` whatever the loader would do |
| Helper.OnlyEmptyPageListRejected | src/helper.py:31-32 | NoContent happens exactly when the loader returns no pages; a non-empty list of empty pages goes on to the splitters with the empty document |
| Helper.ChunkSetsShareDocument | src/helper.py:45-58 | on success the question chunks and the answer chunks are the two splitters' splits of the same document |
| Helper.RefineStepsFailureSticks | src/helper.py:96 | once a refine step fails, the chain's result is that failure and no later step is consulted |
| Helper.RefineChainSnoc | src/helper.py:88-96 | the refine chain is a left fold: the call for each further chunk receives the blob produced by all chunks before it, and a failure anywhere fails the chain |
| Helper.RefineChainSingle | src/helper.py:88-96 | a single chunk is handled by the first model call alone |
| Helper.ChooseEmbeddings | src/helper.py:99-108 | Google embeddings (`models/embedding-001`, with the key) exactly when the key is non-empty; otherwise HuggingFace `sentence-transformers/all-MiniLM-L6-v2` |
| Helper.IsQuestionLineIsEndsWith | src/helper.py:121 | the keep test on a trimmed line is "non-empty and `endswith('?')` or `endswith('.')`" |
| Helper.KeptAreTrimmed | src/helper.py:120-121 | every kept entry equals its own trimmed form |
| Helper.KeptArePunctuated | src/helper.py:120-121 | every kept entry is non-empty and ends in `?` or `.` |
| Helper.KeptAreSingleLines | src/helper.py:119-121 | kept entries hold no line break |
| Helper.FilteredQuestionsAreClean | src/helper.py:119-121 | every question of the filtered list is trimmed, non-empty, ends in `?` or `.`, and is a single line |
| Helper.KeptInOrder | src/helper.py:120-121 | the kept entries are the trimmed lines with some left out and the rest in their original order |
| Helper.KeptCounts | src/helper.py:120-121 | a qualifying trimmed line is kept as many times as it occurs (duplicates kept); a non-qualifying line never appears |
| Helper.FilterIsOrderedSelection | src/helper.py:119-121 | the filtered list is an order-preserving subsequence of the trimmed lines of the blob, with every qualifying line present as often as it occurs and no other line |
| Helper.KeepCleanIsIdentity | src/helper.py:120-121 | lines that are already clean questions are all kept, unchanged |
| Helper.FilterIdempotent | src/helper.py:119-121 | filtering `"\n".join(filtered)` gives `filtered` back |
| Helper.KeepConsKept | src/helper.py:120-121 | a line whose trimmed form qualifies is kept, trimmed, ahead of what the rest keeps |
| Helper.KeepConsDropped | src/helper.py:120-121 | a line whose trimmed form does not qualify adds nothing |
| Helper.FilterDropsBlankAndUnpunctuated | src/helper.py:119-121 | for clean questions `q1` and `q2`, a blank line and an unpunctuated note between them are dropped: the result is `[q1, q2]` |
| Helper.FilterExample | src/helper.py:119-121 | `"What is X?\n\nSome note\nDefine Y."` filters to `["What is X?", "Define Y."]` |
| Helper.LlmPipeline | src/helper.py:61-132 | `llm_pipeline` step by step equals `Pipeline`. Every failure carries the prefix `"Error in LLM pipeline: "`, and every returned question is clean |
| Helper.PipelineMissingFile | src/helper.py:24-25 | a missing file surfaces as `"Error in LLM pipeline: PDF file not found: " + path` |
| Helper.PipelineErrorsArePrefixed | src/helper.py:131-132 | every pipeline failure text starts with `"Error in LLM pipeline: "` |
| Helper.PipelineQuestionsAreClean | src/helper.py:119-129 | every question the pipeline returns is a clean question line |
| Helper.PipelineIgnoresQuestionChunks | src/helper.py:45-47 | the question-splitter chunks never influence the result: splitters that agree on the answer configuration give the same pipeline outcome |
| Helper.PipelineIndexesAnswerChunks | src/helper.py:96-110 | on success the refine chain ran on the answer chunks, and the index holds the answer chunks with the provider the key selects |
| PyStr.Strip | src/helper.py:120 | `strip()` yields a result no longer than the line that, when non-empty, starts and ends with a non-space character |
| PyStr.StripIsSlice | src/helper.py:120 | the stripped line is the contiguous slice of the line starting where the leading whitespace ends |
| PyStr.StripDropsSpaceOnly | src/helper.py:120 | `strip()` removes whitespace only, and gives the empty string exactly for all-whitespace lines |
| PyStr.StripIdempotent | src/helper.py:120 | stripping twice is stripping once |
| PyStr.Split | src/helper.py:119 | `split("\n")` always yields at least one piece, and no piece holds a line break |
| PyStr.SplitJoin | src/helper.py:119 | splitting the join of separator-free parts gives the parts back |
| PyStr.JoinSplit | src/helper.py:119 | joining the split pieces gives the original text back |
| PyStr.Lower | app.py:38 | `lower()` keeps the length and lowers each ASCII capital |
| PyStr.ReplaceChar | app.py:41 | `replace(' ', '_')` keeps the length, turns every space into `_` and keeps every other character |
| PyStr.RemoveAllAbsent | streamlit_app.py:112 | `replace('.pdf', '')` leaves a name without `.pdf` unchanged |
| PyStr.RemoveAllTrailing | streamlit_app.py:112 | `replace(pat, '')` on `s + pat` gives `s` when the scan meets no earlier occurrence |
| PyStr.RemoveAllSkip | streamlit_app.py:112 | characters before the first occurrence of `pat` are kept unchanged, and removal goes on in the rest |
| PyStr.RemoveAllDrop | streamlit_app.py:112 | an occurrence of `pat` at the start is dropped whole and the scan resumes right after it |
| PyStr.NatToString | app.py:53 | `str(n)` is a non-empty string of decimal digits whose value, read most significant first, is `n`, with no leading zero (the first digit is `0` only for `n == 0`) |
| PyStr.NatToStringInjective | streamlit_app.py:95 | different numbers are rendered as different strings |
| AnswerRecords.RecordsFollowNonBlank | app.py:72-78 | the loop yields one record per non-blank entry, in order; record `k` pairs the `k`-th non-blank question with its result or its error text |
| AnswerRecords.NonBlankInOrder | app.py:72-73 | the non-blank entries keep their list order |
| AnswerRecords.NonBlankCounts | app.py:72-73 | a non-blank entry is selected exactly as often as it occurs in the list; a blank one never |
| AnswerRecords.NonBlankSelectsNonBlank | streamlit_app.py:75-76 | exactly the non-blank entries are answered: each once per occurrence, in list order, and no blank entry |
| AnswerRecords.NonBlankOfNoBlanks | streamlit_app.py:75-76 | a list without blank entries is answered entry by entry |
| AnswerRecords.CleanQuestionIsNotBlank | src/helper.py:120-121 | a question the filter keeps is never blank |
| AnswerRecords.AllQuestionsAnswered | streamlit_app.py:74-89 | on a list from the pipeline, record `k` belongs to question `k` whether its call succeeded or failed; one failing call still leaves one record per question, with the error text at its position |
| AnswerRecords.RecordsSnoc | app.py:72-78 | walking one more entry appends at most that entry's record |
| App.CatchAll | app.py:51-53 | the handlers' catch-all turns every exception, HTTP ones included, into a 500 whose detail is the context followed by `str(e)` |
| App.CatchAllIntended | app.py:86-88 | intended catch-all: an `HTTPException` passes through unchanged; any other exception becomes the 500 |
| App.StatusTexts | app.py:53 | `str()` of a 400 or 404 `HTTPException` is `"400: <detail>"` or `"404: <detail>"` |
| App.PathJoin | app.py:42 | `os.path.join`: an absolute name replaces the directory; otherwise a single `/` joins them when the directory is non-empty and does not end in `/`, and they are simply concatenated when it is empty or ends in `/` (both `static/docs` and `static/output` take the `/` case) |
| App.PdfNameIsLastFour | app.py:38 | the extension guard passes exactly when the last four characters, lower-cased, are `.pdf` |
| App.AnyCasePdfAccepted | app.py:38-39 | `.pdf` in any letter case passes the guard, whatever precedes it |
| App.StoredName | app.py:41 | the stored name is the UUID, `_`, then the client's name with every space turned into `_` and every other character kept |
| App.StoredNameHasNoSpace | app.py:41 | with a space-free UUID, the stored name contains no space |
| App.StoredPath | app.py:42 | the stored path is `static/docs/` followed by the stored name |
| App.SaveUpload | app.py:36-49 | the upload succeeds exactly when the name passes the guard and the write raises nothing. A failed guard raises 400 `"Only PDF files are allowed"`. A PDF name whose write raises fails with exactly that exception. Success reports `"success"` with the stored path |
| App.UploadPdf | app.py:31-53 | as written, the upload succeeds exactly as above and then returns `{"msg": "success", "pdf_filename": <stored path>}`; every failure is a 500 whose detail starts with `"Error uploading file: "`, and a failed write of a PDF name gets exactly `"Error uploading file: " + str(e)` |
| App.NonPdfUploadIs500 | app.py:36-53 | as written, a non-PDF upload gets 500 `"Error uploading file: 400: Only PDF files are allowed"` |
| App.UploadPdfIntended | app.py:36-53 | intended: a non-PDF upload gets 400 `"Only PDF files are allowed"`, a write error gets the 500, and a success is the same as written |
| App.CsvRows | app.py:76-78 | one two-cell row `[question, answer]` per record, in order |
| App.CsvTableSnoc | app.py:72-78 | each further entry appends at most its own row |
| App.CsvTableFollowsNonBlank | app.py:70-78 | the header comes first, then one row per non-blank entry, in order, holding the result or `"Error generating answer: " + msg` |
| App.WriteAnswerRows | app.py:68-78 | the CSV loop writes exactly `CsvTable`: the header `["Question", "Answer"]` first, then one row per non-blank question, in list order, with its result or its error text |
| App.OutputFile | app.py:65-66 | the output file is `static/output/QA_` + the first 8 hex characters + `.csv` |
| App.RunAnalysis | app.py:57-84 | the `try` body step by step equals `Analysis`: 404 when the path is missing, the pipeline's error when it fails, otherwise the table, the count `len(ques_list)` and the fixed message |
| App.CsvTableOfCleanQuestions | app.py:72-78 | for a list of clean questions the table has one data row per question, in order |
| App.AnalysisCountMatchesTable | app.py:80-84 | on success `questions_count` is the number of data rows, and data row `k` is question `k` of the pipeline with its result or its error text |
| App.AnalyzePdf | app.py:55-88 | as written, success is the analysis result, and every failure is the catch-all's 500 of the raised exception |
| App.MissingAnalyzeFileIs500 | app.py:57-88 | as written, a missing file gets 500 `"Error analyzing PDF: 404: PDF file not found"` |
| App.PipelineFailureIs500 | app.py:63-88 | a pipeline failure gets 500 `"Error analyzing PDF: "` followed by the pipeline's rewrapped text |
| App.AnalyzePdfIntended | app.py:57-88 | intended: a missing file gets 404 `"PDF file not found"`, a pipeline failure the 500, and a success returns exactly the response of `Analysis`, as the as-written handler does |
| StreamlitApp.DivMonotone | streamlit_app.py:83 | floor division by the list length never decreases as the dividend grows |
| StreamlitApp.ProgressInRange | streamlit_app.py:83 | for `0 <= i < n`, `60 + (i+1)*30 // n` lies in [60, 90] |
| StreamlitApp.ProgressMonotone | streamlit_app.py:83 | the value never decreases as `i` grows |
| StreamlitApp.ProgressLast | streamlit_app.py:83 | the value for `i = n-1` is exactly 90 |
| StreamlitApp.ProgressUpdatesSnoc | streamlit_app.py:78-85 | an entry sets the bar only when it is non-blank and its call succeeds, using its position among all entries |
| StreamlitApp.ProgressUpdatesSorted | streamlit_app.py:75-85 | the values the loop sets never decrease and lie between 60 and the value for the last entry walked (at most 90) |
| StreamlitApp.ProgressUpdatesCount | streamlit_app.py:75-89 | one bar update per successful call: updates plus failed calls equal the non-blank entries |
| StreamlitApp.LoopEndsAt90 | streamlit_app.py:83 | when the last entry is a question whose call succeeds, the loop leaves the bar at 90 |
| StreamlitApp.CollectAnswers | streamlit_app.py:74-89 | the loop builds exactly `Records` with the `"Error: "` prefix and sets exactly the `ProgressUpdates` values |
| StreamlitApp.DownloadName | streamlit_app.py:112 | the download name starts with `QA_`, ends with `.csv`, and is at most 7 characters longer than the upload name |
| StreamlitApp.DownloadNameOfPdf | streamlit_app.py:112 | an upload `<stem>.pdf`, with no `.pdf` in the stem, downloads as `QA_<stem>.csv` |
| StreamlitApp.DownloadNameWithoutExtension | streamlit_app.py:112 | a name without `.pdf` in it is kept whole between `QA_` and `.csv` |
| StreamlitApp.NoPdfInsideStem | streamlit_app.py:112 | in `<stem>.pdf<rest>`, with no `.pdf` in the stem, no `.pdf` starts inside the stem |
| StreamlitApp.DownloadNameDropsFirstPdf | streamlit_app.py:112 | `<stem>.pdf<rest>`, with no `.pdf` in the stem, downloads as `QA_<stem>`, then `rest` with every `.pdf` removed, then `.csv`; with DownloadNameWithoutExtension this fixes the name of every upload, one occurrence at a time |
| StreamlitApp.DownloadNameOfTwoPdfs | streamlit_app.py:112 | every `.pdf` is removed, not only the last: `<s1>.pdf<s2>.pdf` downloads as `QA_<s1><s2>.csv` (so `a.pdf.pdf` gives `QA_a.csv`) |
| StreamlitApp.DoubledExtensionRemoved | streamlit_app.py:112 | `a.pdf.pdf` downloads as `QA_a.csv` |
| StreamlitApp.UpperCaseExtensionKept | streamlit_app.py:112 | the removal is case-sensitive: `Report.PDF` downloads as `QA_Report.PDF.csv` |
| StreamlitApp.Summary | streamlit_app.py:95 | the success banner is `"Generated "`, then a run of decimal digits (every character between head and tail is `0`-`9`) whose value is the count and whose first digit is `0` only for a count of 0, then `" questions and answers!"` |
| StreamlitApp.SummaryDeterminesCount | streamlit_app.py:95 | the banner determines the count: two counts with the same banner are equal |
| StreamlitApp.GenerateQa | streamlit_app.py:44-120 | the button handler step by step equals `Generate`: bar 0, 20, 40, then either the error banner `"❌ Error processing PDF: " + msg` or 60, the loop's values, 100, the table, the count banner and the download name |
| StreamlitApp.ShownRunRecords | streamlit_app.py:74-95 | a shown run has one record per pipeline question, in order, and its banner counts them |
| StreamlitApp.FullBarSorted | streamlit_app.py:52-91 | 0, 20, 40, 60, then loop values in [60, 90], then 100 form a bar that never goes back |
| StreamlitApp.ShownRunProgress | streamlit_app.py:52-91 | a shown run's bar starts at 0, never goes back, and ends at 100 |
| StreamlitApp.FailedRunShape | streamlit_app.py:119-120 | a failed run stops the bar at 40 and shows `"❌ Error processing PDF: Error in LLM pipeline: "` followed by the cause |

## Left out

- PDF loading and text splitting are library code. They are the uninterpreted `load` and `split` collaborators. No size or reconstruction property of the chunks is claimed.
- The refine chain's prompts and its model calls are the uninterpreted `initQuestions`/`refineQuestions`. The fold order is the one the refine chain documents. The empty-list failure text is the library's.
- The Ollama models, FAISS, the embedding back ends and the question-answering chain are opaque. The index is a value recording its provider and chunks. `answer` returns the `result` text or the exception text.
- Every collaborator is modelled as a deterministic function of its arguments. A real model call may answer differently when asked the same thing twice.
- `src/prompt.py` (constant prompt text) is not part of this model.
- Reading `src/config.py` from the environment, `MAX_PAGES` (never used) and the float temperatures are left out. `CHUNK_SIZE` and `CHUNK_OVERLAP` are their defaults, and the key is a collaborator field.
- The Streamlit sidebar writes new values into the config module. These never reach `llm_pipeline`, because the helper copied the names at import. The model's `googleApiKey` is the value the helper sees.
- PyStr.Lower: lowers ASCII capitals only; other upper-case letters (e.g. `'É'`) are left as they are, where Python would lower them.
- StreamlitApp.GenerateQa: the temporary file is a path parameter. A failure while writing it is not modelled; the run would fail before the bar is created. Deleting the file, the warnings and info boxes, the DataFrame display and the CSV serialisation are UI or I/O.
- App.WriteAnswerRows: the table is a sequence of rows. CSV quoting, file encoding and a failure while opening or writing the output file are not modelled.
- App.StoredPath: the path is exact only for a UUID that is non-empty and does not start with `/`. Every `uuid4` string meets this. The UUID and its hex form are parameters, since they are random.
- An upload without a file name (`None`) is not modelled; the name is always a string.
- `download_file`, the index page, routing, `aiofiles` and `uvicorn` are I/O or framework code.
- The rendering of an `HTTPException` by `str()` is the framework's. `App.RaisedText` fixes it as `"<status>: <detail>"`.

## Findings

| source | as written | input that shows it | evidently intended | confidence | as-written member | corrected member |
|---|---|---|---|---|---|---|
| app.py:36-53 | the 400 raised for a non-PDF name is caught by the handler's own `except Exception` and re-raised as a 500 | an upload named `notes.txt` gets 500 `"Error uploading file: 400: Only PDF files are allowed"` | the client gets 400 `"Only PDF files are allowed"` | not executed | App.NonPdfUploadIs500 | App.UploadPdfIntended |
| app.py:57-88 | the 404 raised for a missing file is caught by the handler's own `except Exception` and re-raised as a 500 | `pdf_filename` naming a path that does not exist gets 500 `"Error analyzing PDF: 404: PDF file not found"` | the client gets 404 `"PDF file not found"` | not executed | App.MissingAnalyzeFileIs500 | App.AnalyzePdfIntended |

=== FILE: answer_records.dfy ===
/**
 * The per-question answer loop that both front ends (`app.py` and
 * `streamlit_app.py`) run over the question list: a blank entry is skipped; every
 * other question yields exactly one (question, answer) record, in list order,
 * holding either the answering chain's result or an error text; a failing question
 * never stops the loop. The two front ends differ only in the error prefix.
 */
module AnswerRecords {
  import opened Outcomes
  import opened PyStr
  import opened Helper

  /** `not question.strip()`: the entry is empty or all whitespace. */
  predicate IsBlank(q: string) {
    Strip(q) == ""
  }

  /** One row of the output table. */
  datatype QaRecord = QaRecord(question: string, answer: string)

  /** The answer cell: the chain's result, or the error prefix followed by the exception text. */
  function AnswerText(outcome: Result<string, string>, errorPrefix: string): string {
    match outcome
    case Success(a) => a
    case Failure(m) => errorPrefix + m
  }

  /** The records the loop appends while walking `qs`, in order. */
  function Records(qs: seq<string>, index: VectorIndex, answer: (VectorIndex, string) -> Result<string, string>,
                   errorPrefix: string): seq<QaRecord>
  {
    if qs == [] then []
    else
      var q := qs[|qs| - 1];
      Records(qs[..|qs| - 1], index, answer, errorPrefix)
      + (if IsBlank(q) then [] else [QaRecord(q, AnswerText(answer(index, q), errorPrefix))])
  }

  /** The non-blank entries of `qs`, in order. */
  function NonBlank(qs: seq<string>): seq<string> {
    if qs == [] then []
    else NonBlank(qs[..|qs| - 1]) + (if IsBlank(qs[|qs| - 1]) then [] else [qs[|qs| - 1]])
  }

  /**
   * One record per non-blank entry, in list order: record `k` pairs the `k`-th
   * non-blank question with its answer or its error text.
   */
  lemma {:induction false} RecordsFollowNonBlank(qs: seq<string>, index: VectorIndex,
                                                 answer: (VectorIndex, string) -> Result<string, string>,
                                                 errorPrefix: string)
    ensures |Records(qs, index, answer, errorPrefix)| == |NonBlank(qs)|
    ensures forall k :: 0 <= k < |NonBlank(qs)| ==>
              Records(qs, index, answer, errorPrefix)[k]
              == QaRecord(NonBlank(qs)[k], AnswerText(answer(index, NonBlank(qs)[k]), errorPrefix))
    decreases |qs|
  {
    if qs != [] {
      RecordsFollowNonBlank(qs[..|qs| - 1], index, answer, errorPrefix);
    }
  }

  /** The non-blank entries keep their order in the list. */
  lemma {:induction false} NonBlankInOrder(qs: seq<string>)
    ensures IsSubsequence(NonBlank(qs), qs)
    decreases |qs|
  {
    if qs != [] {
      var init, q := qs[..|qs| - 1], qs[|qs| - 1];
      assert qs == init + [q];
      NonBlankInOrder(init);
      assert NonBlank(qs) == NonBlank(init) + (if IsBlank(q) then [] else [q]);
      if IsBlank(q) {
        assert NonBlank(qs) == NonBlank(init);
        SubsequenceSkipLast(NonBlank(init), init, q);
      } else {
        SubsequenceKeepLast(NonBlank(init), init, q);
      }
    }
  }

  /** A non-blank entry is selected as often as it occurs in the list; a blank one never. */
  lemma {:induction false} NonBlankCounts(qs: seq<string>, t: string)
    ensures multiset(NonBlank(qs))[t] == if IsBlank(t) then 0 else multiset(qs)[t]
    decreases |qs|
  {
    if qs != [] {
      var init, q := qs[..|qs| - 1], qs[|qs| - 1];
      assert qs == init + [q];
      NonBlankCounts(init, t);
    }
  }

  /**
   * The non-blank entries are an ordered selection of the list that leaves out
   * exactly the blank ones: every non-blank entry is kept, once per occurrence and
   * in list order, and no blank entry is kept.
   */
  lemma NonBlankSelectsNonBlank(qs: seq<string>, t: string)
    ensures forall k :: 0 <= k < |NonBlank(qs)| ==> !IsBlank(NonBlank(qs)[k])
    ensures forall k :: 0 <= k < |qs| && !IsBlank(qs[k]) ==> qs[k] in NonBlank(qs)
    ensures IsSubsequence(NonBlank(qs), qs)
    ensures multiset(NonBlank(qs))[t] == if IsBlank(t) then 0 else multiset(qs)[t]
    ensures |NonBlank(qs)| <= |qs|
  {
    NonBlankInOrder(qs);
    NonBlankCounts(qs, t);
    forall k | 0 <= k < |NonBlank(qs)| ensures !IsBlank(NonBlank(qs)[k]) {
      NonBlankCounts(qs, NonBlank(qs)[k]);
    }
    forall k | 0 <= k < |qs| && !IsBlank(qs[k]) ensures qs[k] in NonBlank(qs) {
      NonBlankCounts(qs, qs[k]);
    }
    assert |multiset(NonBlank(qs))| <= |multiset(qs)| by {
      forall u ensures multiset(NonBlank(qs))[u] <= multiset(qs)[u] {
        NonBlankCounts(qs, u);
      }
      assert multiset(NonBlank(qs)) <= multiset(qs);
    }
  }

  /** A list without blank entries is its own non-blank part. */
  lemma {:induction false} NonBlankOfNoBlanks(qs: seq<string>)
    requires forall k :: 0 <= k < |qs| ==> !IsBlank(qs[k])
    ensures NonBlank(qs) == qs
    decreases |qs|
  {
    if qs != [] {
      NonBlankOfNoBlanks(qs[..|qs| - 1]);
      assert qs[..|qs| - 1] + [qs[|qs| - 1]] == qs;
    }
  }

  /** A clean question (what the filter of `llm_pipeline` produces) is never blank. */
  lemma CleanQuestionIsNotBlank(q: string)
    requires IsCleanQuestion(q)
    ensures !IsBlank(q)
  {
  }

  /**
   * On a question list from `llm_pipeline` nothing is skipped: record `k` belongs to
   * question `k`, whether its call succeeded or failed. In particular, when exactly
   * one call fails, the output still has one record per question, with the error
   * text at that question's position.
   */
  lemma AllQuestionsAnswered(qs: seq<string>, index: VectorIndex,
                             answer: (VectorIndex, string) -> Result<string, string>, errorPrefix: string)
    requires forall k :: 0 <= k < |qs| ==> IsCleanQuestion(qs[k])
    ensures |Records(qs, index, answer, errorPrefix)| == |qs|
    ensures forall k :: 0 <= k < |qs| ==>
              Records(qs, index, answer, errorPrefix)[k] == QaRecord(qs[k], AnswerText(answer(index, qs[k]), errorPrefix))
  {
    forall k | 0 <= k < |qs| ensures !IsBlank(qs[k]) {
      CleanQuestionIsNotBlank(qs[k]);
    }
    NonBlankOfNoBlanks(qs);
    RecordsFollowNonBlank(qs, index, answer, errorPrefix);
  }

  /** Walking one more entry appends at most that entry's record. */
  lemma RecordsSnoc(qs: seq<string>, q: string, index: VectorIndex,
                    answer: (VectorIndex, string) -> Result<string, string>, errorPrefix: string)
    ensures Records(qs + [q], index, answer, errorPrefix)
            == Records(qs, index, answer, errorPrefix)
               + (if IsBlank(q) then [] else [QaRecord(q, AnswerText(answer(index, q), errorPrefix))])
  {
    assert (qs + [q])[..|qs|] == qs;
  }
}

=== FILE: app.dfy ===
/**
 * The FastAPI front end of `app.py`: the `/upload` handler (extension guard,
 * stored file name, error wrapping) and the `/analyze` handler (existence guard,
 * `llm_pipeline`, the answer loop written to a CSV table, the JSON summary, error
 * wrapping). Both handlers wrap the whole body in an `except Exception` that turns
 * whatever was raised, including their own HTTP errors, into a 500 response.
 */
module App {
  import opened Outcomes
  import opened PyStr
  import opened Helper
  import opened AnswerRecords

  // ---------------------------------------------------------------------------
  // Exceptions and the catch-all
  // ---------------------------------------------------------------------------

  /** What a handler body raises: an `HTTPException`, or any other exception with its text. */
  datatype Raised =
    | HttpRaised(status: nat, detail: string)
    | OtherRaised(message: string)

  /** The error response the client receives. */
  datatype HttpError = HttpError(status: nat, detail: string)

  /** `str(e)`; the web framework renders an `HTTPException` as "<status>: <detail>". */
  function RaisedText(e: Raised): string {
    match e
    case HttpRaised(s, d) => NatToString(s) + ": " + d
    case OtherRaised(m) => m
  }

  /** The start of the 500 detail each handler's catch-all writes. */
  const UPLOAD_CONTEXT: string := "Error uploading file: "
  const ANALYZE_CONTEXT: string := "Error analyzing PDF: "

  /**
   * The handlers' `except Exception as e` clause as written: every exception,
   * an `HTTPException` included, becomes a 500 whose detail is the handler's
   * context followed by the exception text.
   */
  function CatchAll(context: string, e: Raised): (r: HttpError)
    ensures r.status == 500
    ensures StartsWith(r.detail, context)
    ensures e.OtherRaised? ==> r.detail == context + e.message
    ensures e.HttpRaised? ==> r.detail == context + NatToString(e.status) + ": " + e.detail
  {
    HttpError(500, context + RaisedText(e))
  }

  /**
   * The catch-all as evidently intended: an `HTTPException` raised by the handler
   * reaches the client unchanged; any other exception becomes the 500 above.
   */
  function CatchAllIntended(context: string, e: Raised): (r: HttpError)
    ensures e.HttpRaised? ==> r == HttpError(e.status, e.detail)
    ensures e.OtherRaised? ==> r == CatchAll(context, e)
  {
    match e
    case HttpRaised(s, d) => HttpError(s, d)
    case OtherRaised(_) => CatchAll(context, e)
  }

  /** How the two statuses the handlers raise are rendered. */
  lemma StatusTexts(detail: string)
    ensures RaisedText(HttpRaised(400, detail)) == "400: " + detail
    ensures RaisedText(HttpRaised(404, detail)) == "404: " + detail
  {
    assert NatToString(4) == "4";
    assert NatToString(40) == NatToString(4) + [DigitChar(0)] == "40";
    assert NatToString(400) == NatToString(40) + [DigitChar(0)] == "400";
    assert NatToString(404) == NatToString(40) + [DigitChar(4)] == "404";
  }

  // ---------------------------------------------------------------------------
  // Paths
  // ---------------------------------------------------------------------------

  /**
   * `os.path.join(dir, name)`: an absolute `name` replaces `dir`; otherwise one '/'
   * joins them, unless `dir` is empty or already ends in '/'.
   */
  function PathJoin(dir: string, name: string): (p: string)
    ensures |name| > 0 && name[0] == '/' ==> p == name
    ensures (|name| == 0 || name[0] != '/') && |dir| > 0 && dir[|dir| - 1] != '/' ==> p == dir + "/" + name
    ensures (|name| == 0 || name[0] != '/') && (|dir| == 0 || dir[|dir| - 1] == '/') ==> p == dir + name
  {
    if |name| > 0 && name[0] == '/' then name
    else if |dir| == 0 || dir[|dir| - 1] == '/' then dir + name
    else dir + "/" + name
  }

  const DOCS_DIR: string := "static/docs"
  const OUTPUT_DIR: string := "static/output"

  // ---------------------------------------------------------------------------
  // /upload
  // ---------------------------------------------------------------------------

  /** `filename.lower().endswith('.pdf')`: the extension guard, case-insensitive over ASCII. */
  predicate IsPdfName(filename: string) {
    EndsWith(Lower(filename), ".pdf")
  }

  /** The guard looks at the last four characters only, in any letter case. */
  lemma PdfNameIsLastFour(filename: string)
    ensures IsPdfName(filename) <==>
              |filename| >= 4 && Lower(filename[|filename| - 4..]) == ".pdf"
  {
    if |filename| >= 4 {
      assert Lower(filename)[|filename| - 4..] == Lower(filename[|filename| - 4..]);
    }
  }

  /** Every spelling of the extension passes the guard, whatever comes before it. */
  lemma AnyCasePdfAccepted(stem: string, ext: string)
    requires |ext| == 4 && ext[0] == '.'
    requires ext[1] in "pP" && ext[2] in "dD" && ext[3] in "fF"
    ensures IsPdfName(stem + ext)
  {
    var name := stem + ext;
    assert name[|name| - 4..] == ext;
    assert Lower(ext) == ".pdf";
    PdfNameIsLastFour(name);
  }

  /** The stored name: the request's UUID, '_', then the client's file name with spaces turned into '_'. */
  function StoredName(uuid: string, filename: string): (n: string)
    ensures |n| == |uuid| + 1 + |filename|
    ensures n[..|uuid| + 1] == uuid + "_"
    ensures forall k :: 0 <= k < |filename| ==>
              n[|uuid| + 1 + k] == (if filename[k] == ' ' then '_' else filename[k])
  {
    uuid + "_" + ReplaceChar(filename, ' ', '_')
  }

  /** With a UUID free of spaces, the stored name holds no space at all. */
  lemma StoredNameHasNoSpace(uuid: string, filename: string)
    requires ' ' !in uuid
    ensures ' ' !in StoredName(uuid, filename)
  {
    var n := StoredName(uuid, filename);
    forall k | 0 <= k < |n| ensures n[k] != ' ' {
      if k < |uuid| {
        assert n[..|uuid| + 1][k] == uuid[k];
      } else if k == |uuid| {
        assert n[..|uuid| + 1][k] == '_';
      } else {
        var j := k - |uuid| - 1;
        assert n[|uuid| + 1 + j] == (if filename[j] == ' ' then '_' else filename[j]);
      }
    }
  }

  /** The path `/upload` stores the file under and reports back. */
  function StoredPath(uuid: string, filename: string): (p: string)
    ensures |uuid| > 0 && uuid[0] != '/' ==> p == DOCS_DIR + "/" + StoredName(uuid, filename)
  {
    PathJoin(DOCS_DIR, StoredName(uuid, filename))
  }

  /** The JSON body of a successful upload. */
  datatype UploadResponse = UploadResponse(msg: string, pdfFilename: string)

  /**
   * The body of `upload_pdf`'s try block: the extension guard, then the write of the
   * content under the stored path (`writeError` is the text of whatever the read or
   * the write raised, if anything).
   */
  function SaveUpload(filename: string, uuid: string, writeError: Option<string>): (r: Result<UploadResponse, Raised>)
    ensures r.Success? <==> IsPdfName(filename) && writeError.None?
    ensures !IsPdfName(filename) ==> r == Failure(HttpRaised(400, "Only PDF files are allowed"))
    ensures IsPdfName(filename) && writeError.Some? ==> r == Failure(OtherRaised(writeError.value))
    ensures r.Success? ==> r.value == UploadResponse("success", StoredPath(uuid, filename))
  {
    if !IsPdfName(filename) then Failure(HttpRaised(400, "Only PDF files are allowed"))
    else
      match writeError
      case Some(m) => Failure(OtherRaised(m))
      case None => Success(UploadResponse("success", StoredPath(uuid, filename)))
  }

  /** `upload_pdf` as written: every failure, the extension guard's 400 included, leaves as a 500. */
  function UploadPdf(filename: string, uuid: string, writeError: Option<string>): (r: Result<UploadResponse, HttpError>)
    ensures r.Success? <==> IsPdfName(filename) && writeError.None?
    ensures r.Success? ==> r.value == UploadResponse("success", StoredPath(uuid, filename))
    ensures r.Failure? ==> r.error.status == 500 && StartsWith(r.error.detail, UPLOAD_CONTEXT)
    ensures IsPdfName(filename) && writeError.Some? ==> r == Failure(HttpError(500, UPLOAD_CONTEXT + writeError.value))
  {
    match SaveUpload(filename, uuid, writeError)
    case Success(v) => Success(v)
    case Failure(e) => Failure(CatchAll(UPLOAD_CONTEXT, e))
  }

  /** A non-PDF upload, as written, is reported as a server error that embeds the 400. */
  lemma NonPdfUploadIs500(filename: string, uuid: string, writeError: Option<string>)
    requires !IsPdfName(filename)
    ensures UploadPdf(filename, uuid, writeError)
            == Failure(HttpError(500, UPLOAD_CONTEXT + "400: " + "Only PDF files are allowed"))
  {
    var d := "Only PDF files are allowed";
    StatusTexts(d);
    assert UPLOAD_CONTEXT + ("400: " + d) == UPLOAD_CONTEXT + "400: " + d;
  }

  /** `upload_pdf` as evidently intended: the guard's 400 reaches the client. */
  function UploadPdfIntended(filename: string, uuid: string, writeError: Option<string>): (r: Result<UploadResponse, HttpError>)
    ensures r.Success? <==> IsPdfName(filename) && writeError.None?
    ensures !IsPdfName(filename) ==> r == Failure(HttpError(400, "Only PDF files are allowed"))
    ensures IsPdfName(filename) && writeError.Some? ==>
              r == Failure(HttpError(500, UPLOAD_CONTEXT + writeError.value))
    ensures r.Success? ==> r == UploadPdf(filename, uuid, writeError)
  {
    match SaveUpload(filename, uuid, writeError)
    case Success(v) => Success(v)
    case Failure(e) => Failure(CatchAllIntended(UPLOAD_CONTEXT, e))
  }

  // ---------------------------------------------------------------------------
  // /analyze
  // ---------------------------------------------------------------------------

  /** The header row of the output table. */
  const CSV_HEADER: seq<string> := ["Question", "Answer"]

  /** The answer cell of a question whose call raised starts with this. */
  const ANSWER_ERROR_PREFIX: string := "Error generating answer: "

  /** The CSV rows of a list of records, one two-cell row per record. */
  function CsvRows(rs: seq<QaRecord>): (rows: seq<seq<string>>)
    ensures |rows| == |rs|
    ensures forall k :: 0 <= k < |rs| ==> rows[k] == [rs[k].question, rs[k].answer]
  {
    seq(|rs|, k requires 0 <= k < |rs| => [rs[k].question, rs[k].answer])
  }

  /** The CSV written for the question list: the header, then one row per non-blank question. */
  function CsvTable(questions: seq<string>, index: VectorIndex,
                    answer: (VectorIndex, string) -> Result<string, string>): seq<seq<string>>
  {
    [CSV_HEADER] + CsvRows(Records(questions, index, answer, ANSWER_ERROR_PREFIX))
  }

  /** Walking one more entry appends at most that entry's row. */
  lemma CsvTableSnoc(questions: seq<string>, q: string, index: VectorIndex,
                     answer: (VectorIndex, string) -> Result<string, string>)
    ensures CsvTable(questions + [q], index, answer)
            == CsvTable(questions, index, answer)
               + (if IsBlank(q) then [] else [[q, AnswerText(answer(index, q), ANSWER_ERROR_PREFIX)]])
  {
    var rs := Records(questions, index, answer, ANSWER_ERROR_PREFIX);
    RecordsSnoc(questions, q, index, answer, ANSWER_ERROR_PREFIX);
    if !IsBlank(q) {
      var r := QaRecord(q, AnswerText(answer(index, q), ANSWER_ERROR_PREFIX));
      assert CsvRows(rs + [r]) == CsvRows(rs) + [[r.question, r.answer]];
    }
  }

  /** The table has the header, then one row per non-blank entry, in order. */
  lemma CsvTableFollowsNonBlank(questions: seq<string>, index: VectorIndex,
                                answer: (VectorIndex, string) -> Result<string, string>)
    ensures |CsvTable(questions, index, answer)| == 1 + |NonBlank(questions)|
    ensures CsvTable(questions, index, answer)[0] == CSV_HEADER
    ensures forall k :: 0 <= k < |NonBlank(questions)| ==>
              CsvTable(questions, index, answer)[k + 1]
              == [NonBlank(questions)[k], AnswerText(answer(index, NonBlank(questions)[k]), ANSWER_ERROR_PREFIX)]
  {
    RecordsFollowNonBlank(questions, index, answer, ANSWER_ERROR_PREFIX);
  }

  /** The rows `analyze_pdf` writes, built the way its loop builds them. */
  method WriteAnswerRows(questions: seq<string>, index: VectorIndex,
                         answer: (VectorIndex, string) -> Result<string, string>) returns (rows: seq<seq<string>>)
    ensures rows == CsvTable(questions, index, answer)
    ensures |rows| == 1 + |NonBlank(questions)|
    ensures rows[0] == CSV_HEADER
    ensures forall k :: 0 <= k < |NonBlank(questions)| ==>
              rows[k + 1] == [NonBlank(questions)[k], AnswerText(answer(index, NonBlank(questions)[k]), ANSWER_ERROR_PREFIX)]
  {
    rows := [CSV_HEADER];
    for i := 0 to |questions|
      invariant rows == CsvTable(questions[..i], index, answer)
    {
      var question := questions[i];
      CsvTableSnoc(questions[..i], question, index, answer);
      assert questions[..i + 1] == questions[..i] + [question];
      if !IsBlank(question) {
        var outcome := answer(index, question);
        var cell;
        match outcome {
          case Success(a) => cell := a;
          case Failure(m) => cell := ANSWER_ERROR_PREFIX + m;
        }
        rows := rows + [[question, cell]];
      }
    }
    assert questions[..|questions|] == questions;
    CsvTableFollowsNonBlank(questions, index, answer);
  }

  /** The JSON body of a successful analysis, with the table written to `outputFile`. */
  datatype AnalyzeResponse = AnalyzeResponse(outputFile: string, csvRows: seq<seq<string>>, questionsCount: nat, message: string)

  const ANALYZE_MESSAGE: string := "Questions and answers generated successfully"

  /** `"QA_" + hex[:8] + ".csv"` under the output directory. */
  function OutputFile(hex: string): (p: string)
    ensures |hex| >= 8 ==> p == OUTPUT_DIR + "/QA_" + hex[..8] + ".csv"
  {
    PathJoin(OUTPUT_DIR, "QA_" + hex[..if |hex| < 8 then |hex| else 8] + ".csv")
  }

  /**
   * The body of `analyze_pdf`'s try block: the existence guard, `llm_pipeline`, the
   * answer table and the summary (`hex` is the fresh UUID's hex form).
   */
  function Analysis(pdfFilename: string, hex: string, env: Collaborators): Result<AnalyzeResponse, Raised> {
    if !env.pathExists(pdfFilename) then Failure(HttpRaised(404, "PDF file not found"))
    else
      match Pipeline(pdfFilename, env)
      case Failure(m) => Failure(OtherRaised(m))
      case Success(out) =>
        Success(AnalyzeResponse(OutputFile(hex), CsvTable(out.questions, out.index, env.answer),
                                |out.questions|, ANALYZE_MESSAGE))
  }

  /** The try block of `analyze_pdf`, step by step. */
  method RunAnalysis(pdfFilename: string, hex: string, env: Collaborators) returns (r: Result<AnalyzeResponse, Raised>)
    ensures r == Analysis(pdfFilename, hex, env)
  {
    if !env.pathExists(pdfFilename) {
      return Failure(HttpRaised(404, "PDF file not found"));
    }
    var p := LlmPipeline(pdfFilename, env);
    if p.Failure? {
      return Failure(OtherRaised(p.error));
    }
    var outputFile := OutputFile(hex);
    var rows := WriteAnswerRows(p.value.questions, p.value.index, env.answer);
    r := Success(AnalyzeResponse(outputFile, rows, |p.value.questions|, ANALYZE_MESSAGE));
  }

  /** For a list of clean questions the table has one data row per question, in order. */
  lemma CsvTableOfCleanQuestions(questions: seq<string>, index: VectorIndex,
                                 answer: (VectorIndex, string) -> Result<string, string>)
    requires forall k :: 0 <= k < |questions| ==> IsCleanQuestion(questions[k])
    ensures |CsvTable(questions, index, answer)| == |questions| + 1
    ensures forall k :: 0 <= k < |questions| ==>
              CsvTable(questions, index, answer)[k + 1]
              == [questions[k], AnswerText(answer(index, questions[k]), ANSWER_ERROR_PREFIX)]
  {
    AllQuestionsAnswered(questions, index, answer, ANSWER_ERROR_PREFIX);
  }

  /**
   * On success the reported count is the number of data rows in the table, and data
   * row `k` holds question `k` of the pipeline with its answer or its error text.
   */
  lemma AnalysisCountMatchesTable(pdfFilename: string, hex: string, env: Collaborators, out: PipelineOutput)
    requires env.pathExists(pdfFilename) && Pipeline(pdfFilename, env) == Success(out)
    ensures Analysis(pdfFilename, hex, env).Success?
    ensures Analysis(pdfFilename, hex, env).value.questionsCount + 1 == |Analysis(pdfFilename, hex, env).value.csvRows|
    ensures forall k :: 0 <= k < |out.questions| ==>
              Analysis(pdfFilename, hex, env).value.csvRows[k + 1]
              == [out.questions[k], AnswerText(env.answer(out.index, out.questions[k]), ANSWER_ERROR_PREFIX)]
  {
    PipelineQuestionsAreClean(pdfFilename, env);
    CsvTableOfCleanQuestions(out.questions, out.index, env.answer);
  }

  /** `analyze_pdf` as written: every failure leaves as a 500 with the analysis context. */
  method AnalyzePdf(pdfFilename: string, hex: string, env: Collaborators) returns (r: Result<AnalyzeResponse, HttpError>)
    ensures r.Success? <==> Analysis(pdfFilename, hex, env).Success?
    ensures r.Success? ==> r.value == Analysis(pdfFilename, hex, env).value
    ensures r.Failure? ==> r.error == CatchAll(ANALYZE_CONTEXT, Analysis(pdfFilename, hex, env).error)
  {
    var inner := RunAnalysis(pdfFilename, hex, env);
    match inner {
      case Success(v) => r := Success(v);
      case Failure(e) => r := Failure(CatchAll(ANALYZE_CONTEXT, e));
    }
  }

  /** A missing file, as written, is reported as a server error that embeds the 404. */
  lemma MissingAnalyzeFileIs500(pdfFilename: string, hex: string, env: Collaborators)
    requires !env.pathExists(pdfFilename)
    ensures Analysis(pdfFilename, hex, env).Failure?
    ensures CatchAll(ANALYZE_CONTEXT, Analysis(pdfFilename, hex, env).error)
            == HttpError(500, ANALYZE_CONTEXT + "404: " + "PDF file not found")
  {
    StatusTexts("PDF file not found");
  }

  /** A pipeline failure reaches the client as a 500 carrying the pipeline's rewrapped text. */
  lemma PipelineFailureIs500(pdfFilename: string, hex: string, env: Collaborators)
    requires env.pathExists(pdfFilename) && Pipeline(pdfFilename, env).Failure?
    ensures Analysis(pdfFilename, hex, env).Failure?
    ensures CatchAll(ANALYZE_CONTEXT, Analysis(pdfFilename, hex, env).error)
            == HttpError(500, ANALYZE_CONTEXT + Pipeline(pdfFilename, env).error)
    ensures StartsWith(Pipeline(pdfFilename, env).error, PIPELINE_ERROR_PREFIX)
  {
    PipelineErrorsArePrefixed(pdfFilename, env);
  }

  /** `analyze_pdf` as evidently intended: the existence guard's 404 reaches the client. */
  function AnalyzePdfIntended(pdfFilename: string, hex: string, env: Collaborators): (r: Result<AnalyzeResponse, HttpError>)
    ensures !env.pathExists(pdfFilename) ==> r == Failure(HttpError(404, "PDF file not found"))
    ensures env.pathExists(pdfFilename) && Pipeline(pdfFilename, env).Failure? ==>
              r == Failure(HttpError(500, ANALYZE_CONTEXT + Pipeline(pdfFilename, env).error))
    ensures r.Success? <==> Analysis(pdfFilename, hex, env).Success?
    ensures r.Success? ==> r.value == Analysis(pdfFilename, hex, env).value
  {
    match Analysis(pdfFilename, hex, env)
    case Success(v) => Success(v)
    case Failure(e) => Failure(CatchAllIntended(ANALYZE_CONTEXT, e))
  }
}

=== FILE: helper.dfy ===
/**
 * The PDF-to-questions pipeline of `src/helper.py`: `file_preprocessing` (input
 * guards, page concatenation, the two splitter configurations) and `llm_pipeline`
 * (refine pass over the answer chunks, embedding-provider choice, index build,
 * question-list filter, error rewrap).
 *
 * Everything the module calls but does not own (the filesystem check, the PDF
 * loader, the text splitter, the two language-model steps of the refine chain, the
 * vector-index build and the question-answering chain) is a field of `Collaborators`.
 */
module Helper {
  import opened Outcomes
  import opened PyStr

  // ---------------------------------------------------------------------------
  // Configuration (the defaults of src/config.py)
  // ---------------------------------------------------------------------------

  const CHUNK_SIZE: int := 10000
  const CHUNK_OVERLAP: int := 200

  /** Separators both splitters try, in priority order. */
  const SEPARATORS: seq<string> := ["\n\n", "\n", ". ", " ", ""]

  /** The parameters of one `RecursiveCharacterTextSplitter`. */
  datatype SplitterConfig = SplitterConfig(chunkSize: int, chunkOverlap: int, separators: seq<string>)

  /** The splitter whose chunks feed question generation. */
  const QUESTION_SPLITTER: SplitterConfig := SplitterConfig(CHUNK_SIZE, CHUNK_OVERLAP, SEPARATORS)

  /** The splitter whose chunks feed the refine pass and the vector index (half the overlap, floor division). */
  const ANSWER_SPLITTER: SplitterConfig := SplitterConfig(CHUNK_SIZE, CHUNK_OVERLAP / 2, SEPARATORS)

  /** Both splitters share size and separators; the answer splitter overlaps half as much, never more. */
  lemma SplitterParameters()
    ensures ANSWER_SPLITTER.chunkSize == QUESTION_SPLITTER.chunkSize
    ensures ANSWER_SPLITTER.separators == QUESTION_SPLITTER.separators
    ensures 2 * ANSWER_SPLITTER.chunkOverlap <= QUESTION_SPLITTER.chunkOverlap <= 2 * ANSWER_SPLITTER.chunkOverlap + 1
    ensures 0 <= ANSWER_SPLITTER.chunkOverlap <= QUESTION_SPLITTER.chunkOverlap
  {
  }

  // ---------------------------------------------------------------------------
  // External collaborators
  // ---------------------------------------------------------------------------

  /** The embedding back end `llm_pipeline` picks. */
  datatype EmbeddingProvider =
    | GoogleGenerativeAI(model: string, apiKey: string)
    | HuggingFace(modelName: string)

  /** The FAISS store: the chunks it indexes and the embeddings it was built with. */
  datatype VectorIndex = VectorIndex(provider: EmbeddingProvider, chunks: seq<string>)

  /**
   * The code `src/helper.py` calls but does not own. Each is deterministic here;
   * a `Failure` carries the text of the exception the library would raise.
   */
  datatype Collaborators = Collaborators(
    pathExists: string -> bool,                                    // os.path.exists
    load: string -> Result<seq<string>, string>,                   // PyPDFLoader(path).load(): page texts
    split: (string, SplitterConfig) -> seq<string>,                // RecursiveCharacterTextSplitter.split_text
    initQuestions: string -> Result<string, string>,               // refine chain: first-chunk model call
    refineQuestions: (string, string) -> Result<string, string>,   // refine chain: (existing blob, next chunk)
    googleApiKey: string,                                          // GOOGLE_API_KEY
    buildIndex: (EmbeddingProvider, seq<string>) -> Option<string>, // FAISS.from_documents: Some(error) on failure
    answer: (VectorIndex, string) -> Result<string, string>)       // RetrievalQA invoke: answer["result"] or error

  // ---------------------------------------------------------------------------
  // file_preprocessing
  // ---------------------------------------------------------------------------

  /** The errors `file_preprocessing` raises or lets through from the loader. */
  datatype PreprocessError =
    | FileNotFound(path: string)  // FileNotFoundError
    | NoContent                   // ValueError
    | LoadFailed(message: string) // whatever PyPDFLoader raised

  /** `str(e)` of a preprocessing error. */
  function ErrorText(e: PreprocessError): string {
    match e
    case FileNotFound(p) => "PDF file not found: " + p
    case NoContent => "No content found in the PDF file"
    case LoadFailed(m) => m
  }

  /** The document text: the page texts in order, with nothing between them. */
  function Concat(pages: seq<string>): string {
    if pages == [] then "" else Concat(pages[..|pages| - 1]) + pages[|pages| - 1]
  }

  /** Concatenating two runs of pages is concatenating their texts. */
  lemma {:induction false} ConcatAppend(a: seq<string>, b: seq<string>)
    ensures Concat(a + b) == Concat(a) + Concat(b)
    decreases |b|
  {
    if b != [] {
      var ab := a + b;
      assert ab[..|ab| - 1] == a + b[..|b| - 1];
      ConcatAppend(a, b[..|b| - 1]);
    } else {
      assert a + b == a;
    }
  }

  /** Page `k` sits in the document right after the pages before it and right before the pages after it. */
  lemma ConcatInOrder(pages: seq<string>, k: nat)
    requires k < |pages|
    ensures Concat(pages) == Concat(pages[..k]) + pages[k] + Concat(pages[k + 1..])
    ensures |Concat(pages)| == |Concat(pages[..k])| + |pages[k]| + |Concat(pages[k + 1..])|
  {
    assert pages == pages[..k] + [pages[k]] + pages[k + 1..];
    ConcatAppend(pages[..k] + [pages[k]], pages[k + 1..]);
    ConcatAppend(pages[..k], [pages[k]]);
    assert [pages[k]][..0] == [];
  }

  /** Pages that are all empty give the empty document (which `file_preprocessing` does not reject). */
  lemma {:induction false} ConcatOfEmptyPages(pages: seq<string>)
    requires forall k :: 0 <= k < |pages| ==> pages[k] == ""
    ensures Concat(pages) == ""
    decreases |pages|
  {
    if pages != [] {
      ConcatOfEmptyPages(pages[..|pages| - 1]);
    }
  }

  /** The page loop of `file_preprocessing`: `question_gen += page.page_content` for every page. */
  method AssembleDocument(pages: seq<string>) returns (text: string)
    ensures text == Concat(pages)
  {
    text := "";
    var i := 0;
    while i < |pages|
      invariant 0 <= i <= |pages|
      invariant text == Concat(pages[..i])
    {
      assert pages[..i + 1][..i] == pages[..i];
      text := text + pages[i];
      i := i + 1;
    }
    assert pages[..i] == pages;
  }

  /** The two chunk lists `file_preprocessing` returns. */
  datatype ChunkSets = ChunkSets(questionChunks: seq<string>, answerChunks: seq<string>)

  /** What `file_preprocessing(path)` returns or raises. */
  function Preprocess(path: string, env: Collaborators): Result<ChunkSets, PreprocessError> {
    if !env.pathExists(path) then Failure(FileNotFound(path))
    else
      match env.load(path)
      case Failure(m) => Failure(LoadFailed(m))
      case Success(pages) =>
        if |pages| == 0 then Failure(NoContent)
        else
          var text := Concat(pages);
          Success(ChunkSets(env.split(text, QUESTION_SPLITTER), env.split(text, ANSWER_SPLITTER)))
  }

  /** `file_preprocessing`: the guards, then the page loop, then the two splits. */
  method FilePreprocessing(path: string, env: Collaborators) returns (r: Result<ChunkSets, PreprocessError>)
    ensures r == Preprocess(path, env)
  {
    if !env.pathExists(path) {
      return Failure(FileNotFound(path));
    }
    var loaded := env.load(path);
    if loaded.Failure? {
      return Failure(LoadFailed(loaded.error));
    }
    var pages := loaded.value;
    if |pages| == 0 {
      return Failure(NoContent);
    }
    var text := AssembleDocument(pages);
    var questionChunks := env.split(text, QUESTION_SPLITTER);
    var answerChunks := env.split(text, ANSWER_SPLITTER);
    r := Success(ChunkSets(questionChunks, answerChunks));
  }

  /** A missing file is reported before the loader is consulted: no loader can change the outcome. */
  lemma MissingFileFailsBeforeLoading(path: string, env: Collaborators, load: string -> Result<seq<string>, string>)
    requires !env.pathExists(path)
    ensures Preprocess(path, env) == Failure(FileNotFound(path))
    ensures Preprocess(path, env.(load := load)) == Preprocess(path, env)
  {
  }

  /**
   * Only an empty page list is rejected for lack of content; a non-empty list of
   * empty pages goes on to the splitters with the empty document.
   */
  lemma OnlyEmptyPageListRejected(path: string, env: Collaborators)
    requires env.pathExists(path) && env.load(path).Success?
    ensures Preprocess(path, env) == Failure(NoContent) <==> env.load(path).value == []
    ensures (|env.load(path).value| > 0 && forall k :: 0 <= k < |env.load(path).value| ==> env.load(path).value[k] == "")
            ==> Preprocess(path, env) == Success(ChunkSets(env.split("", QUESTION_SPLITTER), env.split("", ANSWER_SPLITTER)))
  {
    var pages := env.load(path).value;
    if |pages| > 0 && forall k :: 0 <= k < |pages| ==> pages[k] == "" {
      ConcatOfEmptyPages(pages);
    }
  }

  /** On success both chunk lists are splits of the same document, the concatenation of the loaded pages. */
  lemma ChunkSetsShareDocument(path: string, env: Collaborators)
    requires Preprocess(path, env).Success?
    ensures env.pathExists(path) && env.load(path).Success? && |env.load(path).value| > 0
    ensures var text := Concat(env.load(path).value);
      Preprocess(path, env).value == ChunkSets(env.split(text, QUESTION_SPLITTER), env.split(text, ANSWER_SPLITTER))
  {
  }

  // ---------------------------------------------------------------------------
  // The refine chain (load_summarize_chain, chain_type="refine")
  // ---------------------------------------------------------------------------

  /** What the refine chain raises when handed no documents (it reads `docs[0]`). */
  const EMPTY_CHAIN_ERROR: string := "list index out of range"

  /** Refine steps over the remaining chunks, starting from the current blob; a failure ends the chain. */
  function RefineSteps(acc: Result<string, string>, rest: seq<string>,
                       refine: (string, string) -> Result<string, string>): Result<string, string>
    decreases |rest|
  {
    if acc.Failure? || rest == [] then acc
    else RefineSteps(refine(acc.value, rest[0]), rest[1..], refine)
  }

  /** The refine chain: the first model call on the first chunk, then one refine call per further chunk, in order. */
  function RefineChain(chunks: seq<string>, init: string -> Result<string, string>,
                       refine: (string, string) -> Result<string, string>): Result<string, string>
  {
    if chunks == [] then Failure(EMPTY_CHAIN_ERROR)
    else RefineSteps(init(chunks[0]), chunks[1..], refine)
  }

  /** A failed step stays failed: nothing after it is consulted. */
  lemma {:induction false} RefineStepsFailureSticks(e: string, rest: seq<string>,
                                                    refine: (string, string) -> Result<string, string>)
    ensures RefineSteps(Failure(e), rest, refine) == Failure(e)
  {
  }

  /** One more step at the end: the refine steps form a left fold. */
  lemma {:induction false} RefineStepsSnoc(acc: Result<string, string>, rest: seq<string>, c: string,
                                           refine: (string, string) -> Result<string, string>)
    ensures var before := RefineSteps(acc, rest, refine);
      RefineSteps(acc, rest + [c], refine) == (if before.Failure? then before else refine(before.value, c))
    decreases |rest|
  {
    if acc.Success? && rest != [] {
      assert (rest + [c])[0] == rest[0] && (rest + [c])[1..] == rest[1..] + [c];
      RefineStepsSnoc(refine(acc.value, rest[0]), rest[1..], c, refine);
    } else if acc.Success? {
      assert rest + [c] == [c];
    }
  }

  /**
   * Each refine call receives the blob produced by the chunks before it (the
   * immediately preceding value, not an older one) and the next chunk; a failure
   * anywhere fails the whole chain.
   */
  lemma RefineChainSnoc(chunks: seq<string>, c: string, init: string -> Result<string, string>,
                        refine: (string, string) -> Result<string, string>)
    requires chunks != []
    ensures var before := RefineChain(chunks, init, refine);
      RefineChain(chunks + [c], init, refine) == (if before.Failure? then before else refine(before.value, c))
  {
    assert (chunks + [c])[0] == chunks[0] && (chunks + [c])[1..] == chunks[1..] + [c];
    RefineStepsSnoc(init(chunks[0]), chunks[1..], c, refine);
  }

  /** A single chunk is handled by the first model call alone. */
  lemma RefineChainSingle(c: string, init: string -> Result<string, string>,
                          refine: (string, string) -> Result<string, string>)
    ensures RefineChain([c], init, refine) == init(c)
  {
  }

  // ---------------------------------------------------------------------------
  // Embedding choice
  // ---------------------------------------------------------------------------

  /** `if GOOGLE_API_KEY:` — a non-empty key selects Google embeddings, otherwise HuggingFace. */
  function ChooseEmbeddings(googleApiKey: string): (p: EmbeddingProvider)
    ensures p.GoogleGenerativeAI? <==> googleApiKey != ""
    ensures p.GoogleGenerativeAI? ==> p == GoogleGenerativeAI("models/embedding-001", googleApiKey)
    ensures p.HuggingFace? ==> p == HuggingFace("sentence-transformers/all-MiniLM-L6-v2")
  {
    if googleApiKey != "" then GoogleGenerativeAI("models/embedding-001", googleApiKey)
    else HuggingFace("sentence-transformers/all-MiniLM-L6-v2")
  }

  // ---------------------------------------------------------------------------
  // The question-list filter
  // ---------------------------------------------------------------------------

  /** A trimmed line is a question when it is non-empty and its last character is `?` or `.`. */
  predicate IsQuestionLine(t: string) {
    t != "" && (t[|t| - 1] == '?' || t[|t| - 1] == '.')
  }

  /** The last-character test is `t and (t.endswith('?') or t.endswith('.'))`. */
  lemma IsQuestionLineIsEndsWith(t: string)
    ensures IsQuestionLine(t) <==> t != "" && (EndsWith(t, "?") || EndsWith(t, "."))
  {
    if t != "" {
      assert t[|t| - 1..] == [t[|t| - 1]];
    }
  }

  /** `[l.strip() for l in lines if l.strip() and (l.strip().endswith('?') or l.strip().endswith('.'))]` */
  function KeepQuestions(lines: seq<string>): seq<string> {
    if lines == [] then []
    else
      var t := Strip(lines[0]);
      (if IsQuestionLine(t) then [t] else []) + KeepQuestions(lines[1..])
  }

  /** The question list `llm_pipeline` derives from the refine chain's raw text. */
  function FilterQuestions(raw: string): seq<string> {
    KeepQuestions(Split(raw, '\n'))
  }

  /** Every line, trimmed. */
  function StrippedLines(lines: seq<string>): (r: seq<string>)
    ensures |r| == |lines|
    ensures forall k :: 0 <= k < |lines| ==> r[k] == Strip(lines[k])
  {
    seq(|lines|, k requires 0 <= k < |lines| => Strip(lines[k]))
  }

  /** `xs` is `ys` with some elements left out and the rest kept in order. */
  predicate IsSubsequence(xs: seq<string>, ys: seq<string>)
    decreases |ys|
  {
    xs == [] || (ys != [] && ((xs[0] == ys[0] && IsSubsequence(xs[1..], ys[1..])) || IsSubsequence(xs, ys[1..])))
  }

  /** An element added at the end of `ys` alone can be skipped. */
  lemma {:induction false} SubsequenceSkipLast(xs: seq<string>, ys: seq<string>, y: string)
    requires IsSubsequence(xs, ys)
    ensures IsSubsequence(xs, ys + [y])
    decreases |ys|
  {
    if xs != [] {
      assert (ys + [y])[1..] == ys[1..] + [y];
      if xs[0] == ys[0] && IsSubsequence(xs[1..], ys[1..]) {
        SubsequenceSkipLast(xs[1..], ys[1..], y);
      } else {
        SubsequenceSkipLast(xs, ys[1..], y);
      }
    }
  }

  /** An element added at the end of both sequences can be matched. */
  lemma {:induction false} SubsequenceKeepLast(xs: seq<string>, ys: seq<string>, y: string)
    requires IsSubsequence(xs, ys)
    ensures IsSubsequence(xs + [y], ys + [y])
    decreases |ys|
  {
    assert (ys + [y])[0] == if ys == [] then y else ys[0];
    if ys == [] {
      assert xs == [];
      assert ([y])[1..] == [];
    } else {
      assert (ys + [y])[1..] == ys[1..] + [y];
      if xs == [] {
        SubsequenceKeepLast(xs, ys[1..], y);
      } else {
        assert (xs + [y])[0] == xs[0];
        assert (xs + [y])[1..] == xs[1..] + [y];
        if xs[0] == ys[0] && IsSubsequence(xs[1..], ys[1..]) {
          SubsequenceKeepLast(xs[1..], ys[1..], y);
        } else {
          SubsequenceKeepLast(xs, ys[1..], y);
        }
      }
    }
  }

  /** A question is clean: it equals its own trimmed form, is non-empty, ends in `?` or `.`, and is a single line. */
  predicate IsCleanQuestion(q: string) {
    Strip(q) == q && IsQuestionLine(q) && '\n' !in q
  }

  /** Every kept line is its own trimmed form. */
  lemma {:induction false} KeptAreTrimmed(lines: seq<string>)
    ensures forall k :: 0 <= k < |KeepQuestions(lines)| ==> Strip(KeepQuestions(lines)[k]) == KeepQuestions(lines)[k]
  {
    if lines != [] {
      KeptAreTrimmed(lines[1..]);
      StripIdempotent(lines[0]);
    }
  }

  /** Every kept line is non-empty and ends in `?` or `.`. */
  lemma {:induction false} KeptArePunctuated(lines: seq<string>)
    ensures forall k :: 0 <= k < |KeepQuestions(lines)| ==> IsQuestionLine(KeepQuestions(lines)[k])
  {
    if lines != [] {
      KeptArePunctuated(lines[1..]);
    }
  }

  /** Kept lines hold no line break when the lines they come from hold none. */
  lemma {:induction false} KeptAreSingleLines(lines: seq<string>)
    requires forall k :: 0 <= k < |lines| ==> '\n' !in lines[k]
    ensures forall k :: 0 <= k < |KeepQuestions(lines)| ==> '\n' !in KeepQuestions(lines)[k]
  {
    if lines != [] {
      KeptAreSingleLines(lines[1..]);
      StripKeepsOut(lines[0], '\n');
    }
  }

  /** Every kept line is clean. */
  lemma KeptAreClean(lines: seq<string>)
    requires forall k :: 0 <= k < |lines| ==> '\n' !in lines[k]
    ensures forall k :: 0 <= k < |KeepQuestions(lines)| ==> IsCleanQuestion(KeepQuestions(lines)[k])
  {
    KeptAreTrimmed(lines);
    KeptArePunctuated(lines);
    KeptAreSingleLines(lines);
  }

  /**
   * Every question in the filtered list equals its own trimmed form, is non-empty,
   * ends with `?` or `.`, and holds no line break.
   */
  lemma FilteredQuestionsAreClean(raw: string)
    ensures forall k :: 0 <= k < |FilterQuestions(raw)| ==> IsCleanQuestion(FilterQuestions(raw)[k])
  {
    KeptAreClean(Split(raw, '\n'));
  }

  /** The kept lines are the trimmed lines with some left out and the rest in their original order. */
  lemma {:induction false} KeptInOrder(lines: seq<string>)
    ensures IsSubsequence(KeepQuestions(lines), StrippedLines(lines))
  {
    if lines != [] {
      KeptInOrder(lines[1..]);
      var ys := StrippedLines(lines);
      assert ys[1..] == StrippedLines(lines[1..]);
      var t := Strip(lines[0]);
      if IsQuestionLine(t) {
        var xs := KeepQuestions(lines);
        assert xs[0] == ys[0] && xs[1..] == KeepQuestions(lines[1..]);
      } else {
        assert KeepQuestions(lines) == KeepQuestions(lines[1..]);
      }
    }
  }

  /** Keeping counts: a qualifying trimmed line is kept as often as it occurs; any other is never kept. */
  lemma {:induction false} KeptCounts(lines: seq<string>, t: string)
    ensures multiset(KeepQuestions(lines))[t] == if IsQuestionLine(t) then multiset(StrippedLines(lines))[t] else 0
  {
    if lines != [] {
      KeptCounts(lines[1..], t);
      var ys := StrippedLines(lines);
      assert ys == [ys[0]] + StrippedLines(lines[1..]);
    }
  }

  /**
   * The filtered list is an order-preserving subsequence of the trimmed lines of the
   * raw text; every qualifying trimmed line appears as often as it occurs (duplicates
   * are kept), and no other line appears.
   */
  lemma FilterIsOrderedSelection(raw: string, t: string)
    ensures IsSubsequence(FilterQuestions(raw), StrippedLines(Split(raw, '\n')))
    ensures multiset(FilterQuestions(raw))[t]
            == if IsQuestionLine(t) then multiset(StrippedLines(Split(raw, '\n')))[t] else 0
  {
    KeptInOrder(Split(raw, '\n'));
    KeptCounts(Split(raw, '\n'), t);
  }

  /** Lines that are already clean questions are all kept, unchanged. */
  lemma {:induction false} KeepCleanIsIdentity(qs: seq<string>)
    requires forall k :: 0 <= k < |qs| ==> IsCleanQuestion(qs[k])
    ensures KeepQuestions(qs) == qs
  {
    if qs != [] {
      KeepCleanIsIdentity(qs[1..]);
      assert [qs[0]] + qs[1..] == qs;
    }
  }

  /** Filtering the lines of an already filtered list gives that list back. */
  lemma FilterIdempotent(raw: string)
    ensures FilterQuestions(Join(FilterQuestions(raw), '\n')) == FilterQuestions(raw)
  {
    var qs := FilterQuestions(raw);
    FilteredQuestionsAreClean(raw);
    if qs == [] {
      assert Split("", '\n') == [""];
      assert Strip("") == "";
    } else {
      SplitJoin(qs, '\n');
      KeepCleanIsIdentity(qs);
    }
  }

  /** A line that qualifies is kept, trimmed, in front of what the rest keeps. */
  lemma KeepConsKept(line: string, rest: seq<string>)
    requires IsQuestionLine(Strip(line))
    ensures KeepQuestions([line] + rest) == [Strip(line)] + KeepQuestions(rest)
  {
    assert ([line] + rest)[1..] == rest;
  }

  /** A line that does not qualify is dropped. */
  lemma KeepConsDropped(line: string, rest: seq<string>)
    requires !IsQuestionLine(Strip(line))
    ensures KeepQuestions([line] + rest) == KeepQuestions(rest)
  {
    assert ([line] + rest)[1..] == rest;
  }

  /** A trailing question line is kept. */
  lemma KeepLastQuestion(q2: string)
    requires IsQuestionLine(q2) && Strip(q2) == q2
    ensures KeepQuestions([q2]) == [q2]
  {
    KeepConsKept(q2, []);
  }

  /** A note without final punctuation before it is dropped. */
  lemma KeepDropsNote(note: string, q2: string)
    requires IsQuestionLine(q2) && Strip(q2) == q2 && !IsQuestionLine(Strip(note))
    ensures KeepQuestions([note, q2]) == [q2]
  {
    KeepLastQuestion(q2);
    KeepConsDropped(note, [q2]);
    assert [note] + [q2] == [note, q2];
  }

  /** A blank line before those is dropped as well. */
  lemma KeepDropsBlank(blank: string, note: string, q2: string)
    requires IsQuestionLine(q2) && Strip(q2) == q2 && !IsQuestionLine(Strip(note)) && Strip(blank) == ""
    ensures KeepQuestions([blank, note, q2]) == [q2]
  {
    KeepDropsNote(note, q2);
    KeepConsDropped(blank, [note, q2]);
    assert [blank] + [note, q2] == [blank, note, q2];
  }

  /** Of the lines "a question", "a blank line", "a note", "a question", the two questions are kept. */
  lemma KeepDropsBlankAndUnpunctuated(q1: string, blank: string, note: string, q2: string)
    requires IsQuestionLine(q1) && Strip(q1) == q1 && IsQuestionLine(q2) && Strip(q2) == q2
    requires Strip(blank) == "" && !IsQuestionLine(Strip(note))
    ensures KeepQuestions([q1, blank, note, q2]) == [q1, q2]
  {
    KeepDropsBlank(blank, note, q2);
    KeepConsKept(q1, [blank, note, q2]);
    assert [q1] + [blank, note, q2] == [q1, blank, note, q2];
    assert [q1] + [q2] == [q1, q2];
  }

  /**
   * Blank (all-whitespace) lines and lines without final punctuation are dropped:
   * the text whose lines are "a question", "a blank line", "a note", "a question"
   * gives just the two questions.
   */
  lemma FilterDropsBlankAndUnpunctuated(q1: string, blank: string, note: string, q2: string)
    requires IsCleanQuestion(q1) && IsCleanQuestion(q2)
    requires '\n' !in blank && Strip(blank) == ""
    requires '\n' !in note && !IsQuestionLine(Strip(note))
    ensures FilterQuestions(Join([q1, blank, note, q2], '\n')) == [q1, q2]
  {
    SplitJoin([q1, blank, note, q2], '\n');
    KeepDropsBlankAndUnpunctuated(q1, blank, note, q2);
  }

  /** The text of the worked example, line by line. */
  lemma ExampleText()
    ensures Join(["What is X?", "", "Some note", "Define Y."], '\n') == "What is X?\n\nSome note\nDefine Y."
  {
    var q1, blank, note, q2 := "What is X?", "", "Some note", "Define Y.";
    JoinCons(note, [q2], '\n');
    assert [note] + [q2] == [note, q2];
    JoinCons(blank, [note, q2], '\n');
    assert [blank] + [note, q2] == [blank, note, q2];
    JoinCons(q1, [blank, note, q2], '\n');
    assert [q1] + [blank, note, q2] == [q1, blank, note, q2];
    assert q1 + "\n" + (blank + "\n" + (note + "\n" + q2)) == "What is X?\n\nSome note\nDefine Y.";
  }

  /** The lines of the worked example: two clean questions, a blank line and a note. */
  lemma ExampleLinesQualify(q1: string, blank: string, note: string, q2: string)
    requires q1 == "What is X?" && blank == "" && note == "Some note" && q2 == "Define Y."
    ensures IsCleanQuestion(q1) && IsCleanQuestion(q2)
    ensures '\n' !in blank && Strip(blank) == ""
    ensures '\n' !in note && !IsQuestionLine(Strip(note))
  {
    StripOfTrimmed(q1);
    StripOfTrimmed(blank);
    StripOfTrimmed(note);
    StripOfTrimmed(q2);
  }

  /** The worked example: `"What is X?\n\nSome note\nDefine Y."` gives `["What is X?", "Define Y."]`. */
  lemma FilterExample()
    ensures FilterQuestions("What is X?\n\nSome note\nDefine Y.") == ["What is X?", "Define Y."]
  {
    ExampleText();
    ExampleLinesQualify("What is X?", "", "Some note", "Define Y.");
    FilterDropsBlankAndUnpunctuated("What is X?", "", "Some note", "Define Y.");
  }

  // ---------------------------------------------------------------------------
  // llm_pipeline
  // ---------------------------------------------------------------------------

  /** What `llm_pipeline` returns: the retrieval index behind the answering chain, and the question list. */
  datatype PipelineOutput = PipelineOutput(index: VectorIndex, questions: seq<string>)

  /** Every exception inside `llm_pipeline` is re-raised with this prefix in front of its text. */
  const PIPELINE_ERROR_PREFIX: string := "Error in LLM pipeline: "

  /**
   * What `llm_pipeline(path)` returns or raises: preprocessing, then the refine chain
   * over the ANSWER chunks, then the embedding choice and the index over the answer
   * chunks, then the question filter. The question chunks are built and never used.
   */
  function Pipeline(path: string, env: Collaborators): Result<PipelineOutput, string> {
    match Preprocess(path, env)
    case Failure(e) => Failure(PIPELINE_ERROR_PREFIX + ErrorText(e))
    case Success(sets) =>
      match RefineChain(sets.answerChunks, env.initQuestions, env.refineQuestions)
      case Failure(m) => Failure(PIPELINE_ERROR_PREFIX + m)
      case Success(blob) =>
        var provider := ChooseEmbeddings(env.googleApiKey);
        match env.buildIndex(provider, sets.answerChunks)
        case Some(m) => Failure(PIPELINE_ERROR_PREFIX + m)
        case None => Success(PipelineOutput(VectorIndex(provider, sets.answerChunks), FilterQuestions(blob)))
  }

  /** `llm_pipeline`, step by step. */
  method LlmPipeline(path: string, env: Collaborators) returns (r: Result<PipelineOutput, string>)
    ensures r == Pipeline(path, env)
    ensures r.Failure? ==> StartsWith(r.error, PIPELINE_ERROR_PREFIX)
    ensures r.Success? ==> forall k :: 0 <= k < |r.value.questions| ==> IsCleanQuestion(r.value.questions[k])
  {
    var pre := FilePreprocessing(path, env);
    if pre.Failure? {
      return Failure(PIPELINE_ERROR_PREFIX + ErrorText(pre.error));
    }
    var sets := pre.value;
    var ques := RefineChain(sets.answerChunks, env.initQuestions, env.refineQuestions);
    if ques.Failure? {
      return Failure(PIPELINE_ERROR_PREFIX + ques.error);
    }
    var provider := ChooseEmbeddings(env.googleApiKey);
    var built := env.buildIndex(provider, sets.answerChunks);
    if built.Some? {
      return Failure(PIPELINE_ERROR_PREFIX + built.value);
    }
    var questions := FilterQuestions(ques.value);
    FilteredQuestionsAreClean(ques.value);
    r := Success(PipelineOutput(VectorIndex(provider, sets.answerChunks), questions));
  }

  /** A missing file surfaces as the rewrapped FileNotFoundError text. */
  lemma PipelineMissingFile(path: string, env: Collaborators)
    requires !env.pathExists(path)
    ensures Pipeline(path, env) == Failure(PIPELINE_ERROR_PREFIX + "PDF file not found: " + path)
  {
    assert PIPELINE_ERROR_PREFIX + ("PDF file not found: " + path) == PIPELINE_ERROR_PREFIX + "PDF file not found: " + path;
  }

  /** Every failure of the pipeline carries the rewrap prefix. */
  lemma PipelineErrorsArePrefixed(path: string, env: Collaborators)
    ensures Pipeline(path, env).Failure? ==> StartsWith(Pipeline(path, env).error, PIPELINE_ERROR_PREFIX)
  {
  }

  /** Every question the pipeline returns is a clean question line. */
  lemma PipelineQuestionsAreClean(path: string, env: Collaborators)
    requires Pipeline(path, env).Success?
    ensures forall k :: 0 <= k < |Pipeline(path, env).value.questions| ==>
              IsCleanQuestion(Pipeline(path, env).value.questions[k])
  {
    var blob := RefineChain(Preprocess(path, env).value.answerChunks, env.initQuestions, env.refineQuestions).value;
    FilteredQuestionsAreClean(blob);
  }

  /**
   * The chunks of the question splitter never influence the outcome: two splitters
   * that agree on the answer configuration give the same pipeline result.
   */
  lemma PipelineIgnoresQuestionChunks(path: string, env: Collaborators, split: (string, SplitterConfig) -> seq<string>)
    requires forall text :: split(text, ANSWER_SPLITTER) == env.split(text, ANSWER_SPLITTER)
    ensures Pipeline(path, env.(split := split)) == Pipeline(path, env)
  {
    var env2 := env.(split := split);
    match Preprocess(path, env)
    case Failure(e) =>
    case Success(sets) =>
      assert Preprocess(path, env2).value.answerChunks == sets.answerChunks;
  }

  /** On success the index holds the answer chunks, embedded with the provider the key selects. */
  lemma PipelineIndexesAnswerChunks(path: string, env: Collaborators)
    requires Pipeline(path, env).Success?
    ensures Preprocess(path, env).Success?
    ensures Pipeline(path, env).value.index
            == VectorIndex(ChooseEmbeddings(env.googleApiKey), Preprocess(path, env).value.answerChunks)
    ensures RefineChain(Preprocess(path, env).value.answerChunks, env.initQuestions, env.refineQuestions).Success?
  {
  }
}

=== FILE: outcomes.dfy ===
/** Success-or-failure values: the model's stand-in for Python exceptions. */
module Outcomes {

  /** The outcome of an operation that either returns a value or raises an error. */
  datatype Result<+T, +E> = Success(value: T) | Failure(error: E)

  /** An optional value. */
  datatype Option<+T> = None | Some(value: T)
}

=== FILE: py_str.dfy ===
/**
 * The Python `str` operations the application relies on, stated over `seq<char>`:
 * `isspace`, `strip`, `split` and `join` on a one-character separator, `endswith`,
 * `lower` (ASCII letters), `replace` of one character, `replace(pat, '')`, and the
 * decimal rendering of a natural number.
 */
module PyStr {

  // ---------------------------------------------------------------------------
  // Whitespace and strip()
  // ---------------------------------------------------------------------------

  /** `c.isspace()`: exactly the characters that `str.strip()` removes when called without arguments. */
  predicate IsSpace(c: char) {
    var n := c as int;
    (0x09 <= n <= 0x0D) || (0x1C <= n <= 0x20) || n == 0x85 || n == 0xA0 || n == 0x1680
    || (0x2000 <= n <= 0x200A) || n == 0x2028 || n == 0x2029 || n == 0x202F || n == 0x205F
    || n == 0x3000
  }

  /** `s.lstrip()`: the suffix of `s` left after dropping its leading whitespace. */
  function LStrip(s: string): (r: string)
    ensures |r| <= |s|
    ensures r == [] || !IsSpace(r[0])
  {
    if |s| > 0 && IsSpace(s[0]) then LStrip(s[1..]) else s
  }

  /** `s.rstrip()`: the prefix of `s` left after dropping its trailing whitespace. */
  function RStrip(s: string): (r: string)
    ensures |r| <= |s|
    ensures r == [] || !IsSpace(r[|r| - 1])
  {
    if |s| > 0 && IsSpace(s[|s| - 1]) then RStrip(s[..|s| - 1]) else s
  }

  /** Where `Strip(s)` starts inside `s`. */
  function StripStart(s: string): (k: nat)
    ensures k <= |s|
  {
    |s| - |LStrip(s)|
  }

  /**
   * `s.strip()`: the slice of `s` between its leading and its trailing whitespace;
   * when not empty it starts and ends with a non-space character.
   */
  function Strip(s: string): (r: string)
    ensures StripStart(s) + |r| <= |s|
    ensures r == [] || (!IsSpace(r[0]) && !IsSpace(r[|r| - 1]))
  {
    RStripIsPrefix(LStrip(s));
    RStrip(LStrip(s))
  }

  /** `lstrip` keeps a suffix. */
  lemma {:induction false} LStripIsSuffix(s: string)
    ensures LStrip(s) == s[|s| - |LStrip(s)|..]
    decreases |s|
  {
    if |s| > 0 && IsSpace(s[0]) {
      LStripIsSuffix(s[1..]);
    }
  }

  /** `rstrip` keeps a prefix. */
  lemma {:induction false} RStripIsPrefix(s: string)
    ensures RStrip(s) == s[..|RStrip(s)|]
    decreases |s|
  {
    if |s| > 0 && IsSpace(s[|s| - 1]) {
      RStripIsPrefix(s[..|s| - 1]);
    }
  }

  /** `Strip(s)` is the slice of `s` that starts at `StripStart(s)`. */
  lemma StripIsSlice(s: string)
    ensures Strip(s) == s[StripStart(s)..StripStart(s) + |Strip(s)|]
  {
    LStripIsSuffix(s);
    RStripIsPrefix(LStrip(s));
  }

  /** `lstrip` drops whitespace only. */
  lemma {:induction false} LStripDropsSpaceOnly(s: string)
    ensures forall i :: 0 <= i < |s| - |LStrip(s)| ==> IsSpace(s[i])
    decreases |s|
  {
    if |s| > 0 && IsSpace(s[0]) {
      LStripDropsSpaceOnly(s[1..]);
    }
  }

  /** `rstrip` drops whitespace only. */
  lemma {:induction false} RStripDropsSpaceOnly(s: string)
    ensures forall i :: |RStrip(s)| <= i < |s| ==> IsSpace(s[i])
    decreases |s|
  {
    if |s| > 0 && IsSpace(s[|s| - 1]) {
      RStripDropsSpaceOnly(s[..|s| - 1]);
    }
  }

  /**
   * `strip` cuts off whitespace only, and the result is empty exactly when the
   * string is all whitespace (a blank line).
   */
  lemma StripDropsSpaceOnly(s: string)
    ensures forall i :: 0 <= i < StripStart(s) ==> IsSpace(s[i])
    ensures forall i :: StripStart(s) + |Strip(s)| <= i < |s| ==> IsSpace(s[i])
    ensures Strip(s) == [] <==> forall i :: 0 <= i < |s| ==> IsSpace(s[i])
  {
    LStripDropsSpaceOnly(s);
    LStripIsSuffix(s);
    StripIsSlice(s);
    var l := LStrip(s);
    RStripDropsSpaceOnly(l);
    forall i | StripStart(s) + |Strip(s)| <= i < |s|
      ensures IsSpace(s[i])
    {
      assert s[i] == l[i - StripStart(s)];
    }
  }

  /** Stripping twice is stripping once. */
  lemma StripIdempotent(s: string)
    ensures Strip(Strip(s)) == Strip(s)
  {
    var t := Strip(s);
    if t != [] {
      assert LStrip(t) == t;
      assert RStrip(t) == t;
    }
  }

  /** A string with no whitespace at either end is its own strip. */
  lemma StripOfTrimmed(s: string)
    requires s == [] || (!IsSpace(s[0]) && !IsSpace(s[|s| - 1]))
    ensures Strip(s) == s
  {
    assert LStrip(s) == s;
  }

  /** A character that `s` does not contain is not in `Strip(s)` either. */
  lemma StripKeepsOut(s: string, c: char)
    requires c !in s
    ensures c !in Strip(s)
  {
    StripIsSlice(s);
  }

  // ---------------------------------------------------------------------------
  // split(sep) and sep.join(parts)
  // ---------------------------------------------------------------------------

  /**
   * `s.split(sep)` for a one-character separator: the pieces between separators, in
   * order. There is always at least one piece (`"".split("\n") == [""]`), and no
   * piece contains the separator.
   */
  function Split(s: string, sep: char): (parts: seq<string>)
    ensures |parts| >= 1
    ensures forall k :: 0 <= k < |parts| ==> sep !in parts[k]
    decreases |s|
  {
    if |s| == 0 then [""]
    else
      var rest := Split(s[1..], sep);
      if s[0] == sep then [""] + rest
      else [[s[0]] + rest[0]] + rest[1..]
  }

  /** `sep.join(parts)`: the parts, in order, with one separator between neighbours. */
  function Join(parts: seq<string>, sep: char): (s: string)
  {
    if |parts| == 0 then ""
    else if |parts| == 1 then parts[0]
    else parts[0] + [sep] + Join(parts[1..], sep)
  }

  /** Joining a first part onto a non-empty rest puts one separator between them. */
  lemma JoinCons(a: string, rest: seq<string>, sep: char)
    requires |rest| >= 1
    ensures Join([a] + rest, sep) == a + [sep] + Join(rest, sep)
  {
    assert ([a] + rest)[1..] == rest;
  }

  /** A string without the separator splits into itself. */
  lemma {:induction false} SplitNoSep(a: string, sep: char)
    requires sep !in a
    ensures Split(a, sep) == [a]
    decreases |a|
  {
    if |a| > 0 {
      SplitNoSep(a[1..], sep);
      assert [a[0]] + a[1..] == a;
    }
  }

  /** Splitting at the first separator: the piece before it, then the split of the rest. */
  lemma {:induction false} SplitAtFirstSep(a: string, b: string, sep: char)
    requires sep !in a
    ensures Split(a + [sep] + b, sep) == [a] + Split(b, sep)
    decreases |a|
  {
    var s := a + [sep] + b;
    if |a| == 0 {
      assert s[0] == sep && s[1..] == b;
    } else {
      assert s[0] == a[0] && s[1..] == a[1..] + [sep] + b;
      SplitAtFirstSep(a[1..], b, sep);
      assert [a[0]] + a[1..] == a;
    }
  }

  /** Split undoes Join when no part contains the separator. */
  lemma {:induction false} SplitJoin(parts: seq<string>, sep: char)
    requires |parts| >= 1
    requires forall k :: 0 <= k < |parts| ==> sep !in parts[k]
    ensures Split(Join(parts, sep), sep) == parts
    decreases |parts|
  {
    if |parts| == 1 {
      SplitNoSep(parts[0], sep);
    } else {
      SplitJoin(parts[1..], sep);
      SplitAtFirstSep(parts[0], Join(parts[1..], sep), sep);
      assert [parts[0]] + parts[1..] == parts;
    }
  }

  /** Join undoes Split: splitting loses no character. */
  lemma {:induction false} JoinSplit(s: string, sep: char)
    ensures Join(Split(s, sep), sep) == s
    decreases |s|
  {
    if |s| > 0 {
      var rest := Split(s[1..], sep);
      JoinSplit(s[1..], sep);
      if s[0] == sep {
        assert Join(Split(s, sep), sep) == "" + [sep] + Join(rest, sep);
        assert [s[0]] + s[1..] == s;
      } else {
        var parts := Split(s, sep);
        assert parts == [[s[0]] + rest[0]] + rest[1..];
        if |rest| == 1 {
          assert Join(parts, sep) == [s[0]] + rest[0];
          assert [s[0]] + s[1..] == s;
        } else {
          assert parts[1..] == rest[1..];
          assert Join(rest, sep) == rest[0] + [sep] + Join(rest[1..], sep);
          assert Join(parts, sep) == [s[0]] + rest[0] + [sep] + Join(rest[1..], sep);
          assert [s[0]] + s[1..] == s;
        }
      }
    }
  }

  // ---------------------------------------------------------------------------
  // endswith, lower, replace
  // ---------------------------------------------------------------------------

  /** `s.startswith(p)`. */
  predicate StartsWith(s: string, p: string) {
    |p| <= |s| && s[..|p|] == p
  }

  /** `s.endswith(p)`. */
  predicate EndsWith(s: string, p: string) {
    |p| <= |s| && s[|s| - |p|..] == p
  }

  /** The lower-case form of an ASCII capital letter; every other character is itself. */
  function LowerChar(c: char): (d: char)
    ensures 'A' <= c <= 'Z' ==> d as int == c as int + 32
    ensures !('A' <= c <= 'Z') ==> d == c
  {
    if 'A' <= c <= 'Z' then (c as int + 32) as char else c
  }

  /** `s.lower()` restricted to ASCII letters. */
  function Lower(s: string): (r: string)
    ensures |r| == |s|
    ensures forall i :: 0 <= i < |s| ==> r[i] == LowerChar(s[i])
  {
    seq(|s|, i requires 0 <= i < |s| => LowerChar(s[i]))
  }

  /** `s.replace(from, to)` for single characters: every `from` becomes `to`, nothing else moves. */
  function ReplaceChar(s: string, from: char, to: char): (r: string)
    ensures |r| == |s|
    ensures forall i :: 0 <= i < |s| ==> r[i] == (if s[i] == from then to else s[i])
  {
    seq(|s|, i requires 0 <= i < |s| => if s[i] == from then to else s[i])
  }

  /** `pat` occurs in `s` at position `i`. */
  predicate OccursAt(s: string, pat: string, i: int) {
    0 <= i && i + |pat| <= |s| && s[i..i + |pat|] == pat
  }

  /**
   * `s.replace(pat, '')` for a non-empty `pat`: scanning left to right, every
   * occurrence of `pat` that does not overlap an earlier removed one is dropped.
   */
  function RemoveAll(s: string, pat: string): (r: string)
    requires |pat| > 0
    ensures |r| <= |s|
    decreases |s|
  {
    if |s| == 0 then ""
    else if StartsWith(s, pat) then RemoveAll(s[|pat|..], pat)
    else [s[0]] + RemoveAll(s[1..], pat)
  }

  /** A string in which `pat` does not occur is left unchanged by `RemoveAll`. */
  lemma {:induction false} RemoveAllAbsent(s: string, pat: string)
    requires |pat| > 0
    requires forall i :: !OccursAt(s, pat, i)
    ensures RemoveAll(s, pat) == s
    decreases |s|
  {
    if |s| > 0 {
      assert !OccursAt(s, pat, 0);
      forall i ensures !OccursAt(s[1..], pat, i) {
        if OccursAt(s[1..], pat, i) {
          assert s[1..][i..i + |pat|] == s[i + 1..i + 1 + |pat|];
          assert OccursAt(s, pat, i + 1);
        }
      }
      RemoveAllAbsent(s[1..], pat);
      assert [s[0]] + s[1..] == s;
    }
  }

  /**
   * Removing `pat` from `s + pat`, when the only occurrence the scan can meet
   * starts at the join, gives back `s`.
   */
  lemma {:induction false} RemoveAllTrailing(s: string, pat: string)
    requires |pat| > 0
    requires forall i :: 0 <= i < |s| ==> !OccursAt(s + pat, pat, i)
    ensures RemoveAll(s + pat, pat) == s
    decreases |s|
  {
    if |s| == 0 {
      assert s + pat == pat;
      assert pat[|pat|..] == "";
    } else {
      var t := s + pat;
      assert !OccursAt(t, pat, 0);
      assert t[1..] == s[1..] + pat;
      forall i | 0 <= i < |s[1..]| ensures !OccursAt(s[1..] + pat, pat, i) {
        if OccursAt(s[1..] + pat, pat, i) {
          assert t[i + 1..i + 1 + |pat|] == (s[1..] + pat)[i..i + |pat|];
          assert OccursAt(t, pat, i + 1);
        }
      }
      RemoveAllTrailing(s[1..], pat);
      assert [s[0]] + s[1..] == s;
    }
  }

  /** Characters before the first occurrence of `pat` pass through `RemoveAll` unchanged. */
  lemma {:induction false} RemoveAllSkip(a: string, b: string, pat: string)
    requires |pat| > 0
    requires forall i :: 0 <= i < |a| ==> !OccursAt(a + b, pat, i)
    ensures RemoveAll(a + b, pat) == a + RemoveAll(b, pat)
    decreases |a|
  {
    if |a| == 0 {
      assert a + b == b;
    } else {
      var t := a + b;
      assert !OccursAt(t, pat, 0);
      assert t[1..] == a[1..] + b;
      forall i | 0 <= i < |a[1..]| ensures !OccursAt(a[1..] + b, pat, i) {
        if OccursAt(a[1..] + b, pat, i) {
          assert t[i + 1..i + 1 + |pat|] == (a[1..] + b)[i..i + |pat|];
          assert OccursAt(t, pat, i + 1);
        }
      }
      RemoveAllSkip(a[1..], b, pat);
      assert [a[0]] + a[1..] == a;
    }
  }

  /** An occurrence of `pat` at the start is dropped whole, and the scan resumes after it. */
  lemma RemoveAllDrop(b: string, pat: string)
    requires |pat| > 0
    ensures RemoveAll(pat + b, pat) == RemoveAll(b, pat)
  {
    assert (pat + b)[..|pat|] == pat;
    assert (pat + b)[|pat|..] == b;
  }

  // ---------------------------------------------------------------------------
  // str(n)
  // ---------------------------------------------------------------------------

  /** The decimal digit for `d`. */
  function DigitChar(d: nat): (c: char)
    requires d < 10
    ensures '0' <= c <= '9'
  {
    ('0' as int + d) as char
  }

  /** The number a string of decimal digits denotes, read most significant digit first. */
  function DigitsValue(s: string): int {
    if s == [] then 0 else 10 * DigitsValue(s[..|s| - 1]) + (s[|s| - 1] as int - '0' as int)
  }

  /** `str(n)` for a natural number: decimal digits, most significant first, that denote `n`. */
  function NatToString(n: nat): (s: string)
    ensures 1 <= |s|
    ensures forall i :: 0 <= i < |s| ==> '0' <= s[i] <= '9'
    ensures DigitsValue(s) == n
    ensures s[0] == '0' ==> n == 0
    decreases n
  {
    if n < 10 then
      [DigitChar(n)]
    else
      var s := NatToString(n / 10) + [DigitChar(n % 10)];
      assert s[..|s| - 1] == NatToString(n / 10);
      s
  }

  /** Different numbers are rendered differently. */
  lemma NatToStringInjective(a: nat, b: nat)
    requires NatToString(a) == NatToString(b)
    ensures a == b
  {
    assert DigitsValue(NatToString(a)) == a;
  }
}

=== FILE: streamlit_app.dfy ===
/**
 * The Streamlit front end of `streamlit_app.py`: one "Generate" run writes the
 * upload to a temporary PDF, calls `llm_pipeline`, answers every non-blank
 * question (an error text standing in for a failed call), moves the progress bar
 * through fixed and computed values, and offers the table for download under a
 * name derived from the upload's name.
 */
module StreamlitApp {
  import opened Outcomes
  import opened PyStr
  import opened Helper
  import opened AnswerRecords

  // ---------------------------------------------------------------------------
  // Progress bar arithmetic
  // ---------------------------------------------------------------------------

  /** The bar value after answering entry `i` of `n`: `60 + (i + 1) * 30 // n`. */
  function Progress(i: int, n: int): int
    requires 0 <= i < n
  {
    60 + (i + 1) * 30 / n
  }

  /** Floor division by a positive number is monotone in the dividend. */
  lemma DivMonotone(a: int, b: int, n: int)
    requires 0 <= a <= b && 0 < n
    ensures a / n <= b / n
  {
    var qa, qb := a / n, b / n;
    assert n * qa <= a;
    assert b < n * (qb + 1);
    MulCancel(n, qa, qb + 1);
  }

  /** A positive factor can be cancelled from a strict inequality. */
  lemma MulCancel(n: int, x: int, y: int)
    requires 0 < n && n * x < n * y
    ensures x < y
  {
    assert n * (y - x) > 0;
  }

  /** Every computed value lies between 60 and 90. */
  lemma ProgressInRange(i: int, n: int)
    requires 0 <= i < n
    ensures 60 <= Progress(i, n) <= 90
  {
    var q := (i + 1) * 30 / n;
    assert n * q <= (i + 1) * 30 <= n * 30 < n * 31;
    MulCancel(n, q, 31);
  }

  /** A later entry never moves the bar back. */
  lemma ProgressMonotone(i: int, j: int, n: int)
    requires 0 <= i <= j < n
    ensures Progress(i, n) <= Progress(j, n)
  {
    DivMonotone((i + 1) * 30, (j + 1) * 30, n);
  }

  /** The last entry sets the bar to exactly 90. */
  lemma ProgressLast(n: int)
    requires 1 <= n
    ensures Progress(n - 1, n) == 90
  {
    var q := n * 30 / n;
    assert n * q <= n * 30 < n * (q + 1);
    MulCancel(n, q, 31);
    MulCancel(n, 30, q + 1);
  }

  // ---------------------------------------------------------------------------
  // The answer loop
  // ---------------------------------------------------------------------------

  /** The answer cell of a question whose call raised starts with this. */
  const ANSWER_ERROR_PREFIX: string := "Error: "

  /**
   * The bar values the loop sets while walking the prefix `qs` of an `n`-entry
   * list: only after a successful call, computed from the entry's position among
   * all entries (blank ones included).
   */
  function ProgressUpdates(qs: seq<string>, n: nat, index: VectorIndex,
                           answer: (VectorIndex, string) -> Result<string, string>): seq<int>
    requires |qs| <= n
  {
    if qs == [] then []
    else
      var q := qs[|qs| - 1];
      ProgressUpdates(qs[..|qs| - 1], n, index, answer)
      + (if !IsBlank(q) && answer(index, q).Success? then [Progress(|qs| - 1, n)] else [])
  }

  /** The number of non-blank entries of `qs` whose call failed. */
  function FailedCount(qs: seq<string>, index: VectorIndex, answer: (VectorIndex, string) -> Result<string, string>): nat {
    if qs == [] then 0
    else
      var q := qs[|qs| - 1];
      FailedCount(qs[..|qs| - 1], index, answer) + (if !IsBlank(q) && answer(index, q).Failure? then 1 else 0)
  }

  /** Walking one more entry appends at most that entry's bar value. */
  lemma ProgressUpdatesSnoc(qs: seq<string>, q: string, n: nat, index: VectorIndex,
                            answer: (VectorIndex, string) -> Result<string, string>)
    requires |qs| < n
    ensures ProgressUpdates(qs + [q], n, index, answer)
            == ProgressUpdates(qs, n, index, answer)
               + (if !IsBlank(q) && answer(index, q).Success? then [Progress(|qs|, n)] else [])
  {
    assert (qs + [q])[..|qs|] == qs;
  }

  /** `s` never decreases. */
  predicate NonDecreasing(s: seq<int>) {
    forall a, b :: 0 <= a <= b < |s| ==> s[a] <= s[b]
  }

  /**
   * The loop's bar values never decrease, are at least 60, and never exceed the
   * value for the last entry walked (so never above 90).
   */
  lemma {:induction false} ProgressUpdatesSorted(qs: seq<string>, n: nat, index: VectorIndex,
                                                 answer: (VectorIndex, string) -> Result<string, string>)
    requires |qs| <= n
    ensures NonDecreasing(ProgressUpdates(qs, n, index, answer))
    ensures forall a :: 0 <= a < |ProgressUpdates(qs, n, index, answer)| ==>
              60 <= ProgressUpdates(qs, n, index, answer)[a] <= Progress(|qs| - 1, n) <= 90
    decreases |qs|
  {
    if qs != [] {
      var init := qs[..|qs| - 1];
      var r0 := ProgressUpdates(init, n, index, answer);
      var r := ProgressUpdates(qs, n, index, answer);
      ProgressUpdatesSorted(init, n, index, answer);
      ProgressInRange(|qs| - 1, n);
      if |init| > 0 {
        ProgressMonotone(|init| - 1, |qs| - 1, n);
      }
      assert r[..|r0|] == r0;
      forall a | 0 <= a < |r| ensures 60 <= r[a] <= Progress(|qs| - 1, n) {
        if a < |r0| {
          assert r[a] == r0[a];
        }
      }
      forall a, b | 0 <= a <= b < |r| ensures r[a] <= r[b] {
        if b < |r0| {
          assert r[a] == r0[a] && r[b] == r0[b];
        }
      }
    }
  }

  /** One bar value per successful call: with the failed calls they account for every non-blank entry. */
  lemma {:induction false} ProgressUpdatesCount(qs: seq<string>, n: nat, index: VectorIndex,
                                                answer: (VectorIndex, string) -> Result<string, string>)
    requires |qs| <= n
    ensures |ProgressUpdates(qs, n, index, answer)| + FailedCount(qs, index, answer) == |NonBlank(qs)|
    decreases |qs|
  {
    if qs != [] {
      ProgressUpdatesCount(qs[..|qs| - 1], n, index, answer);
    }
  }

  /** When the last entry is a question whose call succeeds, the loop leaves the bar at 90. */
  lemma LoopEndsAt90(qs: seq<string>, index: VectorIndex, answer: (VectorIndex, string) -> Result<string, string>)
    requires |qs| > 0 && !IsBlank(qs[|qs| - 1]) && answer(index, qs[|qs| - 1]).Success?
    ensures |ProgressUpdates(qs, |qs|, index, answer)| > 0
    ensures ProgressUpdates(qs, |qs|, index, answer)[|ProgressUpdates(qs, |qs|, index, answer)| - 1] == 90
  {
    ProgressLast(|qs|);
  }

  /** The loop of the Generate run, step by step. */
  method CollectAnswers(questions: seq<string>, index: VectorIndex,
                        answer: (VectorIndex, string) -> Result<string, string>)
    returns (qaData: seq<QaRecord>, progress: seq<int>)
    ensures qaData == Records(questions, index, answer, ANSWER_ERROR_PREFIX)
    ensures progress == ProgressUpdates(questions, |questions|, index, answer)
  {
    qaData, progress := [], [];
    for i := 0 to |questions|
      invariant qaData == Records(questions[..i], index, answer, ANSWER_ERROR_PREFIX)
      invariant progress == ProgressUpdates(questions[..i], |questions|, index, answer)
    {
      var question := questions[i];
      RecordsSnoc(questions[..i], question, index, answer, ANSWER_ERROR_PREFIX);
      ProgressUpdatesSnoc(questions[..i], question, |questions|, index, answer);
      assert questions[..i + 1] == questions[..i] + [question];
      if !IsBlank(question) {
        var outcome := answer(index, question);
        match outcome {
          case Success(a) =>
            qaData := qaData + [QaRecord(question, a)];
            progress := progress + [Progress(i, |questions|)];
          case Failure(m) =>
            qaData := qaData + [QaRecord(question, ANSWER_ERROR_PREFIX + m)];
        }
      }
    }
    assert questions[..|questions|] == questions;
  }

  // ---------------------------------------------------------------------------
  // Download name
  // ---------------------------------------------------------------------------

  /** `f"QA_{name.replace('.pdf', '')}.csv"`. */
  function DownloadName(uploadName: string): (d: string)
    ensures |d| <= |uploadName| + 7
    ensures StartsWith(d, "QA_") && EndsWith(d, ".csv")
  {
    "QA_" + RemoveAll(uploadName, ".pdf") + ".csv"
  }

  /** A stem without ".pdf" in it has no occurrence of ".pdf" that starts inside it, whatever follows its ".pdf". */
  lemma NoPdfInsideStem(stem: string, rest: string)
    requires forall i :: !OccursAt(stem, ".pdf", i)
    ensures forall i :: 0 <= i < |stem| ==> !OccursAt(stem + ".pdf" + rest, ".pdf", i)
  {
    var s := stem + ".pdf" + rest;
    forall i | 0 <= i < |stem| ensures !OccursAt(s, ".pdf", i) {
      if i + 4 <= |stem| {
        assert s[i..i + 4] == stem[i..i + 4];
        assert !OccursAt(stem, ".pdf", i);
      } else if i + 4 <= |s| {
        assert s[i..i + 4][|stem| - i] == s[|stem|] == '.';
        assert ".pdf"[|stem| - i] != '.';
      }
    }
  }

  /** An upload named `<stem>.pdf`, with no ".pdf" inside the stem, downloads as `QA_<stem>.csv`. */
  lemma DownloadNameOfPdf(stem: string)
    requires forall i :: !OccursAt(stem, ".pdf", i)
    ensures DownloadName(stem + ".pdf") == "QA_" + stem + ".csv"
  {
    NoPdfInsideStem(stem, "");
    assert stem + ".pdf" + "" == stem + ".pdf";
    RemoveAllTrailing(stem, ".pdf");
  }

  /**
   * `<stem>.pdf<rest>`, with no ".pdf" inside the stem, keeps the stem, drops that
   * ".pdf" and goes on removing in `rest`. With `DownloadNameWithoutExtension` this
   * fixes the download name of every upload name, occurrence by occurrence.
   */
  lemma DownloadNameDropsFirstPdf(stem: string, rest: string)
    requires forall i :: !OccursAt(stem, ".pdf", i)
    ensures DownloadName(stem + ".pdf" + rest) == "QA_" + stem + RemoveAll(rest, ".pdf") + ".csv"
  {
    NoPdfInsideStem(stem, rest);
    assert stem + ".pdf" + rest == stem + (".pdf" + rest);
    RemoveAllSkip(stem, ".pdf" + rest, ".pdf");
    RemoveAllDrop(rest, ".pdf");
  }

  /** Every ".pdf" is removed, not only the last: `<s1>.pdf<s2>.pdf` downloads as `QA_<s1><s2>.csv`. */
  lemma DownloadNameOfTwoPdfs(s1: string, s2: string)
    requires forall i :: !OccursAt(s1, ".pdf", i)
    requires forall i :: !OccursAt(s2, ".pdf", i)
    ensures DownloadName(s1 + ".pdf" + s2 + ".pdf") == "QA_" + s1 + s2 + ".csv"
  {
    DownloadNameDropsFirstPdf(s1, s2 + ".pdf");
    assert s1 + ".pdf" + s2 + ".pdf" == s1 + ".pdf" + (s2 + ".pdf");
    NoPdfInsideStem(s2, "");
    assert s2 + ".pdf" + "" == s2 + ".pdf";
    RemoveAllTrailing(s2, ".pdf");
  }

  /** A doubled extension is removed twice: `a.pdf.pdf` downloads as `QA_a.csv`. */
  lemma DoubledExtensionRemoved()
    ensures DownloadName("a.pdf.pdf") == "QA_a.csv"
  {
    assert "a" + ".pdf" + "" + ".pdf" == "a.pdf.pdf";
    DownloadNameOfTwoPdfs("a", "");
  }

  /** A name without ".pdf" in it keeps its whole name between "QA_" and ".csv". */
  lemma DownloadNameWithoutExtension(name: string)
    requires forall i :: !OccursAt(name, ".pdf", i)
    ensures DownloadName(name) == "QA_" + name + ".csv"
  {
    RemoveAllAbsent(name, ".pdf");
  }

  /** The removal is case-sensitive: an upper-case extension stays in the download name. */
  lemma UpperCaseExtensionKept()
    ensures DownloadName("Report.PDF") == "QA_Report.PDF.csv"
  {
    var s := "Report.PDF";
    forall i ensures !OccursAt(s, ".pdf", i) {
      if 0 <= i && i + 4 <= |s| {
        assert s[i..i + 4][2] == s[i + 2];
        assert s[i + 2] != 'd';
      }
    }
    DownloadNameWithoutExtension(s);
  }

  // ---------------------------------------------------------------------------
  // One Generate run
  // ---------------------------------------------------------------------------

  /** What the page shows after a run: the table, or the error banner. */
  datatype GenerateOutcome =
    | Shown(qaData: seq<QaRecord>, progress: seq<int>, summary: string, downloadName: string)
    | Failed(message: string, progress: seq<int>)

  /** The error banner starts with this (a red cross, then the context). */
  const FAILURE_PREFIX: string := "\U{274C} Error processing PDF: "

  /** The text around the count in the success banner. */
  const SUMMARY_HEAD: string := "Generated "
  const SUMMARY_TAIL: string := " questions and answers!"

  /** The success banner for `count` records: the count's decimal digits between the fixed head and tail. */
  function Summary(count: nat): (s: string)
    ensures |s| > |SUMMARY_HEAD| + |SUMMARY_TAIL|
    ensures StartsWith(s, SUMMARY_HEAD) && EndsWith(s, SUMMARY_TAIL)
    ensures forall i :: |SUMMARY_HEAD| <= i < |s| - |SUMMARY_TAIL| ==> '0' <= s[i] <= '9'
    ensures DigitsValue(s[|SUMMARY_HEAD|..|s| - |SUMMARY_TAIL|]) == count
    ensures s[|SUMMARY_HEAD|] == '0' ==> count == 0
  {
    var s := SUMMARY_HEAD + NatToString(count) + SUMMARY_TAIL;
    assert s[|SUMMARY_HEAD|..|s| - |SUMMARY_TAIL|] == NatToString(count);
    s
  }

  /** The banner determines the count: two counts with the same banner are equal. */
  lemma SummaryDeterminesCount(a: nat, b: nat)
    requires Summary(a) == Summary(b)
    ensures a == b
  {
    var s := Summary(a);
    assert DigitsValue(s[|SUMMARY_HEAD|..|s| - |SUMMARY_TAIL|]) == a;
  }

  /**
   * A Generate run on the upload `uploadName` saved at `tmpPath`: the bar goes to 0,
   * 20 and 40 before `llm_pipeline`; on success to 60, then through the loop's
   * values, then to 100.
   */
  function Generate(uploadName: string, tmpPath: string, env: Collaborators): GenerateOutcome {
    match Pipeline(tmpPath, env)
    case Failure(m) => Failed(FAILURE_PREFIX + m, [0, 20, 40])
    case Success(out) =>
      var qa := Records(out.questions, out.index, env.answer, ANSWER_ERROR_PREFIX);
      Shown(qa, [0, 20, 40, 60] + ProgressUpdates(out.questions, |out.questions|, out.index, env.answer) + [100],
            Summary(|qa|), DownloadName(uploadName))
  }

  /** The Generate button's handler, step by step. */
  method GenerateQa(uploadName: string, tmpPath: string, env: Collaborators) returns (o: GenerateOutcome)
    ensures o == Generate(uploadName, tmpPath, env)
  {
    var bar: seq<int> := [0, 20, 40];
    var p := LlmPipeline(tmpPath, env);
    if p.Failure? {
      return Failed(FAILURE_PREFIX + p.error, bar);
    }
    var out := p.value;
    assert Pipeline(tmpPath, env) == Success(out);
    bar := bar + [60];
    var qa, updates := CollectAnswers(out.questions, out.index, env.answer);
    bar := bar + updates + [100];
    assert bar == [0, 20, 40, 60] + updates + [100];
    o := Shown(qa, bar, Summary(|qa|), DownloadName(uploadName));
  }

  /**
   * A shown run has one record per question of the pipeline, in order, and a
   * banner counting them.
   */
  lemma ShownRunRecords(uploadName: string, tmpPath: string, env: Collaborators, out: PipelineOutput)
    requires Pipeline(tmpPath, env) == Success(out)
    ensures Generate(uploadName, tmpPath, env).Shown?
    ensures |Generate(uploadName, tmpPath, env).qaData| == |out.questions|
    ensures forall k :: 0 <= k < |out.questions| ==>
              Generate(uploadName, tmpPath, env).qaData[k]
              == QaRecord(out.questions[k], AnswerText(env.answer(out.index, out.questions[k]), ANSWER_ERROR_PREFIX))
    ensures Generate(uploadName, tmpPath, env).summary == Summary(|out.questions|)
  {
    PipelineQuestionsAreClean(tmpPath, env);
    AllQuestionsAnswered(out.questions, out.index, env.answer, ANSWER_ERROR_PREFIX);
  }

  /** The fixed values around loop values in [60, 90] form a bar that never goes back. */
  lemma FullBarSorted(updates: seq<int>)
    requires NonDecreasing(updates)
    requires forall a :: 0 <= a < |updates| ==> 60 <= updates[a] <= 90
    ensures NonDecreasing([0, 20, 40, 60] + updates + [100])
  {
    var bar := [0, 20, 40, 60] + updates + [100];
    forall a, b | 0 <= a <= b < |bar| ensures bar[a] <= bar[b] {
      if 4 <= a < |bar| - 1 {
        assert bar[a] == updates[a - 4];
      }
      if 4 <= b < |bar| - 1 {
        assert bar[b] == updates[b - 4];
      }
    }
  }

  /** A shown run's bar starts at 0, never goes back and ends at 100. */
  lemma ShownRunProgress(uploadName: string, tmpPath: string, env: Collaborators, out: PipelineOutput)
    requires Pipeline(tmpPath, env) == Success(out)
    ensures Generate(uploadName, tmpPath, env).Shown?
    ensures NonDecreasing(Generate(uploadName, tmpPath, env).progress)
    ensures Generate(uploadName, tmpPath, env).progress[0] == 0
    ensures Generate(uploadName, tmpPath, env).progress[|Generate(uploadName, tmpPath, env).progress| - 1] == 100
  {
    var updates := ProgressUpdates(out.questions, |out.questions|, out.index, env.answer);
    ProgressUpdatesSorted(out.questions, |out.questions|, out.index, env.answer);
    FullBarSorted(updates);
    assert Generate(uploadName, tmpPath, env).progress == [0, 20, 40, 60] + updates + [100];
  }

  /** A failed run stops the bar at 40 and shows the pipeline's rewrapped error. */
  lemma FailedRunShape(uploadName: string, tmpPath: string, env: Collaborators)
    requires Pipeline(tmpPath, env).Failure?
    ensures Generate(uploadName, tmpPath, env).Failed?
    ensures Generate(uploadName, tmpPath, env).progress == [0, 20, 40]
    ensures StartsWith(Generate(uploadName, tmpPath, env).message, FAILURE_PREFIX + PIPELINE_ERROR_PREFIX)
  {
    var m := Pipeline(tmpPath, env).error;
    PipelineErrorsArePrefixed(tmpPath, env);
    assert m == PIPELINE_ERROR_PREFIX + m[|PIPELINE_ERROR_PREFIX|..];
    assert FAILURE_PREFIX + m == (FAILURE_PREFIX + PIPELINE_ERROR_PREFIX) + m[|PIPELINE_ERROR_PREFIX|..];
  }
}
